=== FILE: README.md ===
# DNS conformance probes: probe compiler, evidence validator, first service address

This project models the core of the DNS end-to-end checks in
`src/test/e2e/network`. It has three parts.

- **The probe compiler.** `createProbeCommand` turns six inputs into a shell
  loop and a list of result file names:
  - a list of names to resolve;
  - a list of host entries;
  - an optional address to look up in reverse (empty when there is none);
  - the file name prefix `fileNamePrefix`, which starts every result file name except the PTR ones;
  - the pod's `namespace` and the cluster's `dnsDomain`, which form the pod's own A record name `<a-b-c-d>.<namespace>.pod.<dnsDomain>`.

  For each name, the loop runs `dig` over UDP and over TCP. Names that start
  with `_` are looked up as SRV records and all others as A records. For each
  host entry it runs `getent hosts`. It always looks up the pod's own A record
  over both transports. When an address is given, it looks up
  `<reversed address>.in-addr.arpa.` as a PTR record over both transports.

  Every lookup that succeeds writes `OK` to `/results/<file name>`. A file name
  has the form `<prefix>_<udp|tcp|hosts>@<subject>`, except the two PTR files,
  which are named `<address>_udp@PTR` and `<address>_tcp@PTR`.
- **The evidence validator.** `assertFilesContain` and `assertFilesExist` poll
  the result files through the pod proxy until all of them pass. On each tick,
  every file is fetched, and the content is optionally compared with an
  expected text.
- **The first address of a service CIDR.** `getFirstIP` masks the network's
  IPv4 address and increments its last byte.

## Modules

The modules and the source each one models:

- `Wrappers`: `Option` and `Result`.
- `GoStrings`: Go's `strings.HasPrefix`, `HasSuffix`, `Contains`, `Split` and `Join` on `seq<char>`. It also proves the round trips between `Split` and `Join`.
- `EvidenceIds`: a result file identifier as a datatype `(source, channel, subject)`.
  - `Format` prints the identifier as the compiler spells it.
  - `Parse` tokenises a file name back into an identifier.
  - The module proves that the two are inverse to each other when the identifier's source has no `@`. The condition is exact: an identifier whose source contains `@`, such as `a@b` with UDP and subject `c`, never reads back as itself.
- `ProbeCompiler`: `reverseArray`, the PTR query name, and `createProbeCommand`. The compiler is modelled as a list of typed steps.
  - `Render` prints each step as the exact shell text the Go code emits.
  - The file names are the formatted write targets of the steps, in the order the Go code appends them.
- `ProbeProperties`: properties of the compiled program.
  - Every announced file is written by the program, and every write is announced.
  - Every name, host entry, pod record and PTR lookup appears in the program.
  - The file names are distinct under stated conditions, and the inputs that make them collide are named.
- `DnsScenarios`: the concrete call from `dns.go`.
  - Two compilations, `wheezy` and `jessie`, over three service names and the querier pod's two host entries.
  - A worked reverse-lookup name.
- `EvidenceValidator`: one poll tick (`Tick`, with the loop `RunTick`) and the whole poll (`Poll`, with the loop `RunPoll`). A fetch has one of three outcomes:
  - it returned contents;
  - it failed while the per-call context was still live;
  - it failed after the per-call context had expired. `framework.Failf` then ends the test at once, which is modelled as the fatal verdict `Aborted`.

  The clock is not modelled. A poll is the sequence of fetch snapshots of the ticks that start before the 600-second timeout. `wait.PollImmediate` runs the first tick at once, so there is always at least one.
- `FirstIP`: `getFirstIP` on byte sequences.
  - `To4` and `Mask` follow Go's `net.IP.To4` and `net.IP.Mask`, including the 16-byte IPv4-in-IPv6 forms.
  - `ip[3]++` is a `bv8` increment, which wraps from 255 to 0.
  - A nil result of `Mask` (the mask does not fit) is the error `MaskDoesNotFit`, because `ip[3]++` would panic.

Facts of the code that shape the model:

- Each host entry gives one `_hosts@` file (dns_common.go:133-136). A call therefore yields `2·|names| + |hostEntries| + 2` file names, plus 2 when an address is given.
- File names are not distinct for every input. A repeated name repeats its files, and a name spelled `PodARecord` repeats a pod-record file (dns_common.go:125-145). `FileNamesDistinct` proves distinctness under stated conditions, and `RepeatedNameRepeatsFile` and `PodARecordNameCollides` prove the collisions.
- Every tick fetches every file again, not only the ones that failed before (dns_common.go:202-223).
- A fetch error after the per-call context expired calls `framework.Failf`, which ends the test at once (dns_common.go:213-214).

## Model

| member | source | states |
|---|---|---|
| GoStrings.Split | src/test/e2e/network/dns_common.go:148 | `strings.Split` always yields at least one part, and no part contains the separator |
| GoStrings.SplitCount | src/test/e2e/network/dns_common.go:148 | the number of parts is one more than the number of separators |
| GoStrings.JoinSplit | src/test/e2e/network/dns_common.go:148 | joining the parts of a split with the separator gives back the original string |
| GoStrings.SplitJoin | src/test/e2e/network/dns_common.go:148 | splitting a join of separator-free parts gives back the parts |
| GoStrings.HasPrefix | src/test/e2e/network/dns_common.go:122 | no ensures: it is the definition of `strings.HasPrefix`; `ProbeCompiler.LookupType` states, as an if-and-only-if, what line 122 decides with it |
| GoStrings.Join | src/test/e2e/network/dns_common.go:148 | no ensures: `strings.Join`; `GoStrings.JoinSplit` and `GoStrings.SplitJoin` carry its contract as the inverse of `Split` on separator-free parts |
| ProbeCompiler.Reversed | src/test/e2e/network/dns_common.go:37-43 | the reversed list has the same length, and position i holds the element at position len-1-i |
| ProbeCompiler.ReversedTwice | src/test/e2e/network/dns_common.go:37-43 | reversing twice is the identity |
| ProbeCompiler.ReverseArray | src/test/e2e/network/dns_common.go:37-43 | the swap loop over the first half yields the same length and exactly `Reversed(arr)`, the list whose position i holds the input at len-1-i |
| ProbeCompiler.LookupType | src/test/e2e/network/dns_common.go:121-124 | the record type is SRV exactly when the name starts with `_`, and A exactly otherwise |
| ProbeCompiler.PtrQueryName | src/test/e2e/network/dns_common.go:148 | the reverse-lookup name always ends in `.in-addr.arpa.`; `PtrQueryNameLabels` and `PtrQueryNameOfParts` state which labels come before the suffix |
| ProbeCompiler.PtrQueryNameLabels | src/test/e2e/network/dns_common.go:148 | the labels of the PTR query name are the address's labels reversed, followed by `in-addr`, `arpa` and the empty root label |
| ProbeCompiler.PtrQueryNameOfParts | src/test/e2e/network/dns_common.go:148 | for an address made of dot-free labels, the query name is those labels reversed and dot-joined, followed by `.in-addr.arpa.` |
| ProbeCompiler.CreateProbeCommand | src/test/e2e/network/dns_common.go:114-159 | the file count is 2 per name, 1 per host entry, 2 for the pod record and 2 more exactly when an address is given; the program opens the 600-iteration loop and ends with `sleep 1; done` |
| ProbeCompiler.FileNameCount | src/test/e2e/network/dns_common.go:114-159 | the count of write targets depends only on the input sizes and on whether an address is given |
| ProbeCompiler.FileNameLayout | src/test/e2e/network/dns_common.go:114-159 | the exact file name at each position: `<prefix>_udp@name`, then `<prefix>_tcp@name` per name, then `<prefix>_hosts@entry`, then the two PodARecord files, then `<ip>_udp@PTR` and `<ip>_tcp@PTR` |
| ProbeCompiler.SectionFileNames | src/test/e2e/network/dns_common.go:125-154 | the same layout, stated for any identifier lists that have the section shapes |
| ProbeCompiler.ProgramWritesEveryFile | src/test/e2e/network/dns_common.go:114-159 | for every returned file name, the program contains `echo OK > /results/<file name>;` |
| ProbeCompiler.RenderAllWritesTargets | src/test/e2e/network/dns_common.go:114-159 | the rendered text of any step list writes the result file of each of its targets |
| ProbeCompiler.Render | src/test/e2e/network/dns_common.go:127-152 | no ensures: the exact text of one step; `WriteInStep`, `ProbeProperties.DigInStep`, `ProbeProperties.GetentInStep` and `ProbeProperties.BindInStep` state what that text contains |
| ProbeCompiler.RenderAll | src/test/e2e/network/dns_common.go:116-157 | no ensures: the concatenated step texts; `RenderAllWritesTargets` and `ProbeProperties.RenderAllContainsSteps` carry its contract |
| ProbeCompiler.WriteInStep | src/test/e2e/network/dns_common.go:127-152 | the text of every step except the pod-record binding contains `echo OK > /results/<its file name>;` |
| ProbeCompiler.NameTargets | src/test/e2e/network/dns_common.go:117-130 | the name section gives a UDP identifier and then a TCP identifier for each name, in input order |
| ProbeCompiler.HostTargets | src/test/e2e/network/dns_common.go:133-136 | the host section gives one hosts identifier for each entry, in input order |
| ProbeCompiler.ProbeTargets | src/test/e2e/network/dns_common.go:114-159 | the targets are the name section, then the host section, then the pod record pair, then the PTR pair when an address is given |
| ProbeCompiler.NameSteps | src/test/e2e/network/dns_common.go:117-131 | each name k gives two lookups at positions 2k and 2k+1: a UDP dig, then a TCP dig, both with the name's lookup type and writing `<prefix>_udp@name` and `<prefix>_tcp@name`; every step writes a file |
| ProbeCompiler.HostSteps | src/test/e2e/network/dns_common.go:133-137 | host entry k gives exactly one getent step at position k, writing `<prefix>_hosts@entry`; every step writes a file |
| ProbeCompiler.PodARecordSteps | src/test/e2e/network/dns_common.go:139-145 | no ensures: the binding of the pod's A record name, then its UDP and TCP A lookups; `ProbeProperties.PodStepsAt`, `ProbeProperties.BindInStep` and `ProbeProperties.PodARecordInProgram` carry its contract |
| ProbeCompiler.PtrSteps | src/test/e2e/network/dns_common.go:147-155 | no ensures: the UDP and TCP PTR lookups of the reverse-lookup name; `ProbeProperties.PtrStepsAt` and `ProbeProperties.PtrLookupsInProgram` carry its contract |
| ProbeCompiler.ProbeSteps | src/test/e2e/network/dns_common.go:114-159 | no ensures: the whole step list in append order; `ProbeProperties.NameStepsAt`, `ProbeProperties.HostStepAt`, `ProbeProperties.PodStepsAt`, `ProbeProperties.PtrStepsAt` and `ProbeProperties.EveryWriteIsAnnounced` carry its contract |
| ProbeCompiler.Targets | src/test/e2e/network/dns_common.go:114-159 | there are never more write targets than steps; `TargetsAppend` and `TargetsOfWritingSteps` state which targets they are |
| ProbeCompiler.TargetsAppend | src/test/e2e/network/dns_common.go:114-159 | the targets of two step lists in sequence are the first list's targets followed by the second's, as the appends to `fileNames` accumulate |
| ProbeCompiler.TargetsOfWritingSteps | src/test/e2e/network/dns_common.go:114-159 | when every step writes a file, the targets are the steps' targets one for one, in order |
| ProbeCompiler.TailFileNames | src/test/e2e/network/dns_common.go:139-154 | after the name and host files come `<prefix>_udp@PodARecord` and `<prefix>_tcp@PodARecord`, then the PTR files exactly when an address is given |
| EvidenceIds.ParseFormat | src/test/e2e/network/dns_common.go:125-150 | when the source has no `@`, parsing a formatted file name gives back the identifier |
| EvidenceIds.FormatParse | src/test/e2e/network/dns_common.go:125-150 | any file name that parses is exactly the format of its parse |
| EvidenceIds.ParseFormatExactly | src/test/e2e/network/dns_common.go:125-150 | a file name reads back as its identifier if and only if the identifier's source has no `@`; a prefix or address containing `@` makes the file name ambiguous |
| EvidenceIds.FormatInjective | src/test/e2e/network/dns_common.go:125-150 | for `@`-free sources, two identifiers have the same file name if and only if they are equal |
| EvidenceIds.Format | src/test/e2e/network/dns_common.go:125-150 | no ensures: prints `<source>_<udp/tcp/hosts>@<subject>`; `ParseFormat`, `FormatParse` and `FormatInjective` carry its contract |
| ProbeProperties.EveryWriteIsAnnounced | src/test/e2e/network/dns_common.go:114-159 | every step except the single pod-record binding writes a file, and that file is among the returned names; the binding sits right after the host section |
| ProbeProperties.BindingPosition | src/test/e2e/network/dns_common.go:139-145 | the step list has one step per file plus the binding, and the binding is the only non-writing step |
| ProbeProperties.NameStepsAt | src/test/e2e/network/dns_common.go:117-130 | name k becomes a UDP dig and then a TCP dig at positions 2k and 2k+1, with its lookup type and file identifiers |
| ProbeProperties.HostStepAt | src/test/e2e/network/dns_common.go:133-136 | host entry k becomes a getent step right after the name section |
| ProbeProperties.PodStepsAt | src/test/e2e/network/dns_common.go:139-145 | after the host section come the pod-record binding and the UDP and TCP A lookups of the bound name |
| ProbeProperties.PtrStepsAt | src/test/e2e/network/dns_common.go:147-152 | with an address, the last two steps are the UDP dig and then the TCP dig of `PtrQueryName(ip)` for a PTR record, writing `<ip>_udp@PTR` and `<ip>_tcp@PTR` |
| ProbeProperties.DigInStep | src/test/e2e/network/dns_common.go:127-152 | the text of a DNS step contains its `dig` invocation with the step's transport flag, query and record type |
| ProbeProperties.GetentInStep | src/test/e2e/network/dns_common.go:136 | the text of a host-entry step contains `getent hosts <entry>)` |
| ProbeProperties.BindInStep | src/test/e2e/network/dns_common.go:141 | the text of the pod-record binding contains `.<namespace>.pod.<domain>` |
| ProbeProperties.NameLookupsInProgram | src/test/e2e/network/dns_common.go:117-130 | for each name, the program contains the `dig +notcp` and `dig +tcp` invocations with SRV for `_` names and A otherwise |
| ProbeProperties.HostLookupsInProgram | src/test/e2e/network/dns_common.go:133-136 | for each host entry, the program contains `getent hosts <entry>` |
| ProbeProperties.PodARecordInProgram | src/test/e2e/network/dns_common.go:141 | the program builds the pod A record name ending in `.<namespace>.pod.<domain>` |
| ProbeProperties.PtrLookupsInProgram | src/test/e2e/network/dns_common.go:147-152 | with an address, the program digs the reversed `in-addr.arpa.` name for PTR over UDP and TCP |
| ProbeProperties.NameTargetsDistinct | src/test/e2e/network/dns_common.go:117-130 | distinct names give distinct name-section identifiers, all DNS identifiers with the prefix as source |
| ProbeProperties.TargetsDistinct | src/test/e2e/network/dns_common.go:114-159 | the identifiers are distinct when the names and entries are distinct, no name is `PodARecord`, and the prefix differs from the address |
| ProbeProperties.FileNamesDistinct | src/test/e2e/network/dns_common.go:114-159 | under the same conditions, and with no `@` in the prefix or the address, the returned file names are pairwise distinct |
| ProbeProperties.SameTargetSameFile | src/test/e2e/network/dns_common.go:114-159 | two positions with the same identifier have the same file name |
| ProbeProperties.RepeatedNameRepeatsFile | src/test/e2e/network/dns_common.go:117-130 | a name given twice yields the same UDP file name twice |
| ProbeProperties.PodARecordNameCollides | src/test/e2e/network/dns_common.go:125-145 | a name spelled `PodARecord` yields the same file name as the pod record's UDP lookup |
| ProbeProperties.NameTargetsAtFront | src/test/e2e/network/dns_common.go:114-143 | the identifiers start with the name section, the host section and the pod record pair, whatever the address |
| DnsScenarios.SourcesArePrefix | src/test/e2e/network/dns_common.go:125-145 | without an address, every identifier has the prefix as its source |
| DnsScenarios.FileNameInitial | src/test/e2e/network/dns_common.go:125-145 | without an address, every file name starts with the prefix's first character |
| DnsScenarios.ThreeNamesTwoHosts | src/test/e2e/network/dns.go:61-69 | three names and two host entries give ten file names, with the UDP and TCP files of the first name first, the second host entry at position 7 and the PodARecord pair last |
| DnsScenarios.ServiceNameScenario | src/test/e2e/network/dns.go:60-75 | the wheezy and jessie compilations each give 10 files, 20 together, such as `wheezy_udp@kubernetes.default`, `wheezy_hosts@dns-querier-1` and `jessie_tcp@PodARecord` |
| DnsScenarios.ServiceInputs | src/test/e2e/network/dns.go:61-67 | the three service names and the two host entries are distinct, and no name is `PodARecord` |
| DnsScenarios.ServiceNameFilesDistinct | src/test/e2e/network/dns.go:68-75 | the 20 file names that the two compilations hand to the validator are pairwise distinct |
| DnsScenarios.TwoVariantsDistinct | src/test/e2e/network/dns.go:68-75 | two compilations whose prefixes start with different characters give file lists whose concatenation is distinct |
| DnsScenarios.VariantsDisjoint | src/test/e2e/network/dns.go:68-69 | prefixes with different first characters give disjoint file lists |
| DnsScenarios.DottedQuadReverse | src/test/e2e/network/dns_common.go:148 | the PTR query name of `a.b.c.d` is `d.c.b.a.in-addr.arpa.` |
| DnsScenarios.ReverseLookupName | src/test/e2e/network/dns_common.go:148 | the PTR query name of `10.0.0.5` is `5.0.0.10.in-addr.arpa.` |
| EvidenceValidator.Misses | src/test/e2e/network/dns_common.go:201-222 | the failed list is at most as long as the file list and holds only listed names |
| EvidenceValidator.IsMiss | src/test/e2e/network/dns_common.go:212-222 | no ensures: whether one fetch puts its file on the failed list; `MissesMembers` and `MissesEmpty` state its effect on the list |
| EvidenceValidator.FirstDeadlineFailure | src/test/e2e/network/dns_common.go:212-214 | the reported file is one of the listed files; `FirstDeadlineFailureSpec` states that it is the earliest fetch that failed past its deadline |
| EvidenceValidator.MissesMembers | src/test/e2e/network/dns_common.go:201-222 | a name is in the failed list if and only if some fetch of it failed, or returned trimmed contents other than the expected text while checking is on |
| EvidenceValidator.MissesEmpty | src/test/e2e/network/dns_common.go:201-225 | the failed list is empty if and only if no fetch is a miss |
| EvidenceValidator.MissesSnoc | src/test/e2e/network/dns_common.go:201-222 | the failed list grows in fetch order: one more file appends its name exactly when its fetch is a miss |
| EvidenceValidator.FirstDeadlineFailureSpec | src/test/e2e/network/dns_common.go:212-214 | there is no fatal fetch if and only if no fetch failed after its context expired; otherwise the reported name is that of the earliest such fetch |
| EvidenceValidator.Tick | src/test/e2e/network/dns_common.go:197-228 | a tick that reports missing files names at least one |
| EvidenceValidator.RunTick | src/test/e2e/network/dns_common.go:197-228 | the fetch loop computes the tick verdict: fatal at the first expired-context failure, otherwise clean or the misses in fetch order |
| EvidenceValidator.DecidePassed | src/test/e2e/network/dns_common.go:196-229 | polling passes at tick n if and only if tick n is clean and every earlier tick missed files |
| EvidenceValidator.DecideTimedOut | src/test/e2e/network/dns_common.go:196-231 | polling times out with a residual list if and only if every tick missed files and the last tick's list is that residual |
| EvidenceValidator.DecideAborted | src/test/e2e/network/dns_common.go:196-214 | polling aborts on a file if and only if some tick is fatal on it and every earlier tick missed files |
| EvidenceValidator.Decide | src/test/e2e/network/dns_common.go:196-229 | a pass is reported at a tick that exists; `DecidePassed`, `DecideTimedOut` and `DecideAborted` state each outcome as an if-and-only-if |
| EvidenceValidator.Poll | src/test/e2e/network/dns_common.go:196-231 | a pass is reported at a tick that exists |
| EvidenceValidator.PollPassed | src/test/e2e/network/dns_common.go:196-229 | the pass condition stated in terms of the tick verdicts of the fetched snapshots |
| EvidenceValidator.PollTimedOut | src/test/e2e/network/dns_common.go:196-231 | the timeout condition stated in terms of the tick verdicts of the fetched snapshots |
| EvidenceValidator.PollAborted | src/test/e2e/network/dns_common.go:196-214 | the abort condition stated in terms of the tick verdicts of the fetched snapshots |
| EvidenceValidator.PersistentMissTimesOut | src/test/e2e/network/dns_common.go:196-231 | if every tick sees the same missing files, the poll times out with exactly those files |
| EvidenceValidator.PollPassesAtCleanTick | src/test/e2e/network/dns_common.go:196-229 | the poll passes if and only if some tick is clean and every tick before it missed some file |
| EvidenceValidator.AssertFilesContain | src/test/e2e/network/dns_common.go:193-231 | the test passes if and only if some tick is clean and every earlier tick missed some file without a fatal fetch |
| EvidenceValidator.ExistenceTick | src/test/e2e/network/dns_common.go:212-222 | with checking off, a tick is clean exactly when every fetch returned contents, and misses files exactly when some fetch failed and none failed past its deadline |
| EvidenceValidator.AssertFilesExist | src/test/e2e/network/dns_common.go:189-191 | the test passes if and only if some tick fetched every file and every earlier tick had a failed fetch but none past its deadline |
| EvidenceValidator.RunPoll | src/test/e2e/network/dns_common.go:196-231 | the tick loop, which stops at the first clean or fatal tick, computes the poll verdict |
| EvidenceValidator.TickIgnoresContents | src/test/e2e/network/dns_common.go:189-191 | with checking off, a tick depends only on which fetches returned contents |
| EvidenceValidator.ExistenceIgnoresContents | src/test/e2e/network/dns_common.go:189-191 | `assertFilesExist` gives the same verdict for any two polls whose fetches succeed and fail alike, whatever the contents and the trim |
| FirstIP.To4 | src/test/e2e/network/cidr.go:96-97 | an address has an IPv4 form exactly when it has 4 bytes, or 16 bytes starting with the IPv4-in-IPv6 prefix; that form is its last four bytes |
| FirstIP.Mask | src/test/e2e/network/cidr.go:99 | Go's `IP.Mask` on a 4-byte address, with a 16-byte mask cut to its last four bytes when the first twelve are all ones; `MaskStaysInNetwork` states what the result means, and `GetFirstIP`, `SameNetworkSameFirstIP` and `FirstIPInNetwork` build on it |
| FirstIP.MaskStaysInNetwork | src/test/e2e/network/cidr.go:99 | the masked address lies in the network of the address it came from, and masking it again with the same mask gives the same result |
| FirstIP.GetFirstIP | src/test/e2e/network/cidr.go:95-103 | it fails exactly when there is no IPv4 form, or when the mask does not fit; otherwise the first three bytes are masked and the last is masked plus one, modulo 256 |
| FirstIP.ByteIncrement | src/test/e2e/network/cidr.go:100 | `ip[3]++` adds one modulo 256 |
| FirstIP.SameNetworkSameFirstIP | src/test/e2e/network/cidr.go:95-103 | two addresses that agree on the masked bits give the same first address |
| FirstIP.ShortPrefixEndsInOne | src/test/e2e/network/cidr.go:95-103 | when the mask's last byte is 0, the first address ends in 1 |
| FirstIP.FirstIPInNetwork | src/test/e2e/network/cidr.go:95-103 | the first address lies in the network if and only if the mask's lowest bit is clear, so it does not for a /32 |
| FirstIP.DefaultServiceCIDR | src/test/e2e/network/cidr.go:95-103 | the default service range 10.100.200.0/24 has first address 10.100.200.1 |
| FirstIP.DefaultServiceCIDRIn16Bytes | src/test/e2e/network/cidr.go:95-103 | the same range written with a 16-byte address and mask has the same first address |

## Left out

- `createDNSPod` and `validateDNSResults` are not modelled. They build pod objects and call the cluster API.
- The REST fetch through the pod proxy becomes a `Fetch` value per file per tick.
  - The 5-second interval, the 600-second timeout and `framework.SingleCallTimeout` are not modelled.
  - A poll is the list of snapshots of the ticks that run.
  - Logging (`framework.Logf`, `By`) is not modelled.
- The final `Expect(len(failed)).To(Equal(0))` is not modelled separately. It can only be reached after a passing poll, where `failed` is empty.
- The shell meaning of the probe program is not modelled: `dig`, `getent`, `awk`, quoting, and the kubelet's expansion of `$$`. The model fixes the text the compiler emits, not what a shell does with it.
- Go strings are byte strings, but the model uses `string`, a sequence of characters. No property depends on the difference: `_`, `.` and `@` are ASCII, and `len(ptrLookupIP) > 0` gives the same answer on bytes or characters.
- `strings.TrimSpace` is the parameter `trim`. No property depends on what it does.
- ProbeCompiler.ReverseArray: does not model that the Go function reverses the caller's slice in place and returns the same slice. The model returns the reversed sequence.
- The CIDR checks in the `Describe` block of cidr.go are not modelled. This covers `net.ParseCIDR`, `net.ParseIP`, `IPNet.Contains` and the cluster calls. `getFirstIP` takes an already parsed network.
- FirstIP.GetFirstIP: the failed `Expect(ip).NotTo(BeNil())` and the panic of `ip[3]++` on a nil slice become the errors `NotIPv4` and `MaskDoesNotFit`. Test termination is not modelled.
- src/test/e2e/auth/certificate.go is not part of this model.

=== FILE: dns_scenarios.dfy ===
/**
 The probe compiler on the inputs the DNS conformance test passes it: three
 names of the `kubernetes` service, the querier pod's two host entries, no
 reverse lookup, once for each of the two image variants `wheezy` and
 `jessie`. The namespace and the cluster domain are whatever the test run
 has, so they stay parameters. Also the reverse-lookup name of one address.
 */
module DnsScenarios {
  import opened GoStrings
  import opened EvidenceIds
  import opened ProbeCompiler
  import opened ProbeProperties

  const QuerierHostName := "dns-querier-1"
  const TestServiceName := "dns-test-service"

  /** The names the test resolves through the cluster DNS. */
  function ServiceNames(domain: string): seq<string> {
    ["kubernetes.default", "kubernetes.default.svc", "kubernetes.default.svc." + domain]
  }

  /** The querier pod's fully qualified host name and its short host name. */
  function QuerierHostEntries(namespace: string, domain: string): seq<string> {
    [QuerierHostName + "." + TestServiceName + "." + namespace + ".svc." + domain, QuerierHostName]
  }

  function Variant(prefix: string, namespace: string, domain: string): ProbeCommand {
    CreateProbeCommand(ServiceNames(domain), QuerierHostEntries(namespace, domain), "", prefix, namespace, domain)
  }

  /** Without a reverse lookup, every identifier of a compilation has the
      variant prefix as its source. */
  lemma SourcesArePrefix(names: seq<string>, hostEntries: seq<string>, prefix: string,
                         namespace: string, domain: string)
    ensures var ids := Targets(ProbeSteps(names, hostEntries, "", prefix, namespace, domain));
            forall i :: 0 <= i < |ids| ==> ids[i].source == prefix
  {
    var ids := Targets(ProbeSteps(names, hostEntries, "", prefix, namespace, domain));
    var n, m := 2 * |names|, 2 * |names| + |hostEntries|;
    assert |ids| == m + 2 by {
      ProbeTargets(names, hostEntries, "", prefix, namespace, domain);
      NameTargets(names, prefix);
      HostTargets(hostEntries, prefix);
    }
    NameTargetsAtFront(names, hostEntries, "", prefix, namespace, domain);
    forall i | 0 <= i < |ids| ensures ids[i].source == prefix {
      SourceAt(names, hostEntries, prefix, ids, i);
    }
  }

  lemma SourceAt(names: seq<string>, hostEntries: seq<string>, prefix: string, ids: seq<EvidenceId>, i: nat)
    requires |ids| == 2 * |names| + |hostEntries| + 2 && i < |ids|
    requires forall k :: 0 <= k < |names| ==>
               ids[2 * k] == EvidenceId(prefix, Dns(Udp), names[k])
               && ids[2 * k + 1] == EvidenceId(prefix, Dns(Tcp), names[k])
    requires forall k :: 0 <= k < |hostEntries| ==> ids[2 * |names| + k] == EvidenceId(prefix, HostsFile, hostEntries[k])
    requires ids[2 * |names| + |hostEntries|] == EvidenceId(prefix, Dns(Udp), "PodARecord")
    requires ids[2 * |names| + |hostEntries| + 1] == EvidenceId(prefix, Dns(Tcp), "PodARecord")
    ensures ids[i].source == prefix
  {
    var n := 2 * |names|;
    if i < n {
      var k := i / 2;
      if i % 2 == 0 {
        assert ids[2 * k] == EvidenceId(prefix, Dns(Udp), names[k]);
      } else {
        assert ids[2 * k + 1] == EvidenceId(prefix, Dns(Tcp), names[k]);
      }
    } else if i < n + |hostEntries| {
      assert ids[n + (i - n)] == EvidenceId(prefix, HostsFile, hostEntries[i - n]);
    }
  }

  /** A result file's name starts with its identifier's source. */
  lemma FormatStartsWithSource(id: EvidenceId)
    requires |id.source| > 0
    ensures |Format(id)| > 0 && Format(id)[0] == id.source[0]
  {
    assert Format(id) == id.source + ("_" + Tag(id.channel) + "@" + id.subject);
  }

  /** Every result file of a compilation without a reverse lookup starts
      with the first letter of the variant prefix. */
  lemma FileNameInitial(names: seq<string>, hostEntries: seq<string>, prefix: string,
                        namespace: string, domain: string, i: nat)
    requires |prefix| > 0
    requires i < |CreateProbeCommand(names, hostEntries, "", prefix, namespace, domain).fileNames|
    ensures var x := CreateProbeCommand(names, hostEntries, "", prefix, namespace, domain).fileNames[i];
            |x| > 0 && x[0] == prefix[0]
  {
    var ids := Targets(ProbeSteps(names, hostEntries, "", prefix, namespace, domain));
    CompiledProgram(names, hostEntries, "", prefix, namespace, domain);
    SourcesArePrefix(names, hostEntries, prefix, namespace, domain);
    FormatStartsWithSource(ids[i]);
  }

  /** Three names and two host entries without a reverse lookup give ten
      result files: UDP and TCP per name, one per host entry, and the pod A
      record pair. */
  lemma ThreeNamesTwoHosts(names: seq<string>, hostEntries: seq<string>, prefix: string,
                           namespace: string, domain: string)
    requires |names| == 3 && |hostEntries| == 2
    ensures var r := CreateProbeCommand(names, hostEntries, "", prefix, namespace, domain);
            && |r.fileNames| == 10
            && r.fileNames[0] == Format(EvidenceId(prefix, Dns(Udp), names[0]))
            && r.fileNames[1] == Format(EvidenceId(prefix, Dns(Tcp), names[0]))
            && r.fileNames[7] == Format(EvidenceId(prefix, HostsFile, hostEntries[1]))
            && r.fileNames[8] == Format(EvidenceId(prefix, Dns(Udp), "PodARecord"))
            && r.fileNames[9] == Format(EvidenceId(prefix, Dns(Tcp), "PodARecord"))
  {
    var ids := Targets(ProbeSteps(names, hostEntries, "", prefix, namespace, domain));
    var r := CreateProbeCommand(names, hostEntries, "", prefix, namespace, domain);
    assert r.fileNames == FormatAll(ids) by {
      CompiledProgram(names, hostEntries, "", prefix, namespace, domain);
    }
    assert && ids[0] == EvidenceId(prefix, Dns(Udp), names[0])
           && ids[1] == EvidenceId(prefix, Dns(Tcp), names[0])
           && ids[7] == EvidenceId(prefix, HostsFile, hostEntries[1])
           && ids[8] == EvidenceId(prefix, Dns(Udp), "PodARecord")
           && ids[9] == EvidenceId(prefix, Dns(Tcp), "PodARecord") by {
      NameTargetsAtFront(names, hostEntries, "", prefix, namespace, domain);
      assert ids[2 * 0] == EvidenceId(prefix, Dns(Udp), names[0]);
      assert ids[2 * 0 + 1] == EvidenceId(prefix, Dns(Tcp), names[0]);
      assert ids[2 * |names| + 1] == EvidenceId(prefix, HostsFile, hostEntries[1]);
    }
  }

  /** The test's inputs give ten result files per variant, twenty in all. */
  lemma ServiceNameScenario(namespace: string, domain: string)
    ensures var w, j := Variant("wheezy", namespace, domain), Variant("jessie", namespace, domain);
            && |w.fileNames| == 10 && |j.fileNames| == 10
            && |w.fileNames + j.fileNames| == 20
            && w.fileNames[0] == Format(EvidenceId("wheezy", Dns(Udp), "kubernetes.default"))
            && w.fileNames[7] == Format(EvidenceId("wheezy", HostsFile, QuerierHostName))
            && j.fileNames[9] == Format(EvidenceId("jessie", Dns(Tcp), "PodARecord"))
  {
    var names, hosts := ServiceNames(domain), QuerierHostEntries(namespace, domain);
    ThreeNamesTwoHosts(names, hosts, "wheezy", namespace, domain);
    ThreeNamesTwoHosts(names, hosts, "jessie", namespace, domain);
  }

  /** The twenty result files the test waits for are pairwise distinct. */
  lemma ServiceNameFilesDistinct(namespace: string, domain: string)
    ensures Distinct(Variant("wheezy", namespace, domain).fileNames + Variant("jessie", namespace, domain).fileNames)
  {
    ServiceInputs(namespace, domain);
    TwoVariantsDistinct(ServiceNames(domain), QuerierHostEntries(namespace, domain), "wheezy", "jessie",
                        namespace, domain);
  }

  /** The test's names and host entries meet the hypotheses under which a
      compilation's result files are distinct. */
  lemma ServiceInputs(namespace: string, domain: string)
    ensures Distinct(ServiceNames(domain)) && Distinct(QuerierHostEntries(namespace, domain))
    ensures "PodARecord" !in ServiceNames(domain)
  {
    var names, hosts := ServiceNames(domain), QuerierHostEntries(namespace, domain);
    assert |names[0]| < |names[1]| < |names[2]|;
    assert |hosts[1]| < |hosts[0]|;
    assert |names[0]| != 10 && |names[1]| != 10 && |names[2]| != 10;
  }

  /** Two variants whose prefixes start differently, compiled from names and
      host entries whose result files are distinct, share no result file. */
  lemma TwoVariantsDistinct(names: seq<string>, hostEntries: seq<string>, p1: string, p2: string,
                            namespace: string, domain: string)
    requires Distinct(names) && Distinct(hostEntries) && "PodARecord" !in names
    requires |p1| > 0 && |p2| > 0 && p1[0] != p2[0] && '@' !in p1 && '@' !in p2
    ensures Distinct(CreateProbeCommand(names, hostEntries, "", p1, namespace, domain).fileNames
                     + CreateProbeCommand(names, hostEntries, "", p2, namespace, domain).fileNames)
  {
    var w := CreateProbeCommand(names, hostEntries, "", p1, namespace, domain).fileNames;
    var j := CreateProbeCommand(names, hostEntries, "", p2, namespace, domain).fileNames;
    FileNamesDistinct(names, hostEntries, "", p1, namespace, domain);
    FileNamesDistinct(names, hostEntries, "", p2, namespace, domain);
    VariantsDisjoint(names, hostEntries, p1, p2, namespace, domain);
    DistinctConcat(w, j);
  }

  /** No result file of one variant is one of a variant whose prefix starts
      with another letter. */
  lemma VariantsDisjoint(names: seq<string>, hostEntries: seq<string>, p1: string, p2: string,
                         namespace: string, domain: string)
    requires |p1| > 0 && |p2| > 0 && p1[0] != p2[0]
    ensures var w := CreateProbeCommand(names, hostEntries, "", p1, namespace, domain).fileNames;
            var j := CreateProbeCommand(names, hostEntries, "", p2, namespace, domain).fileNames;
            forall x :: x in w ==> x !in j
  {
    var w := CreateProbeCommand(names, hostEntries, "", p1, namespace, domain).fileNames;
    var j := CreateProbeCommand(names, hostEntries, "", p2, namespace, domain).fileNames;
    forall x | x in w ensures x !in j {
      var a :| 0 <= a < |w| && w[a] == x;
      FileNameInitial(names, hostEntries, p1, namespace, domain, a);
      forall b | 0 <= b < |j| ensures j[b] != x {
        FileNameInitial(names, hostEntries, p2, namespace, domain, b);
      }
    }
  }

  /** The reverse-lookup name of a dotted-quad address is its four parts
      in reverse order under `in-addr.arpa.`. */
  lemma DottedQuadReverse(a: string, b: string, c: string, d: string)
    requires '.' !in a && '.' !in b && '.' !in c && '.' !in d
    ensures PtrQueryName(a + "." + b + "." + c + "." + d) == d + "." + c + "." + b + "." + a + InAddrArpa
  {
    var parts := [a, b, c, d];
    JoinOfFour(a, b, c, d);
    JoinOfFour(d, c, b, a);
    assert Reversed(parts) == [d, c, b, a];
    PtrQueryNameOfParts(parts);
  }

  lemma JoinOfFour(a: string, b: string, c: string, d: string)
    ensures Join([a, b, c, d], ".") == a + "." + b + "." + c + "." + d
  {
    assert [a, b, c, d][1..] == [b, c, d];
    assert [b, c, d][1..] == [c, d];
    assert [c, d][1..] == [d];
    assert Join([c, d], ".") == c + "." + d;
    assert Join([b, c, d], ".") == b + "." + (c + "." + d);
  }

  /** The reverse-lookup name of 10.0.0.5 is 5.0.0.10.in-addr.arpa. */
  lemma ReverseLookupName(ip: string)
    requires ip == "10.0.0.5"
    ensures PtrQueryName(ip) == "5.0.0.10.in-addr.arpa."
  {
    assert ip == "10" + "." + "0" + "." + "0" + "." + "5";
    DottedQuadReverse("10", "0", "0", "5");
    assert "5" + "." + "0" + "." + "0" + "." + "10" + InAddrArpa == "5.0.0.10.in-addr.arpa.";
  }
}

=== FILE: evidence_ids.dfy ===
/**
 Evidence identifiers: the result-file names the probe program writes and the
 validator fetches. Each is `<source>_<channel>@<subject>`, where the source
 is the runtime variant prefix (or the reverse-lookup address for PTR
 checks), the channel is `udp`, `tcp` or `hosts`, and the subject is the
 looked-up name or one of the tokens `PodARecord` / `PTR`.
 */
module EvidenceIds {
  import opened Wrappers
  import opened GoStrings

  /** The DNS transport a `dig` probe uses. */
  datatype Transport = Udp | Tcp

  /** How a probe resolves its subject: DNS over a transport, or `getent hosts`. */
  datatype Channel = Dns(transport: Transport) | HostsFile

  /** One expected probe outcome, before it is rendered as a file name. */
  datatype EvidenceId = EvidenceId(source: string, channel: Channel, subject: string)

  function Tag(c: Channel): string {
    match c
    case Dns(Udp) => "udp"
    case Dns(Tcp) => "tcp"
    case HostsFile => "hosts"
  }

  /** The file name of an identifier: `<source>_<tag>@<subject>`. */
  function Format(id: EvidenceId): string {
    id.source + "_" + Tag(id.channel) + "@" + id.subject
  }

  /** The position of the first `c` in `s`. */
  function IndexOf(s: string, c: char): (k: nat)
    requires c in s
    ensures k < |s| && s[k] == c
    ensures c !in s[..k]
    decreases |s|
  {
    if s[0] == c then 0
    else
      assert s == [s[0]] + s[1..];
      var k := IndexOf(s[1..], c);
      assert s[..k + 1] == [s[0]] + s[1..][..k];
      k + 1
  }

  lemma {:induction false} IndexOfAfterPlainPrefix(a: string, b: string, c: char)
    requires c !in a && c in b
    ensures c in a + b && IndexOf(a + b, c) == |a| + IndexOf(b, c)
    decreases |a|
  {
    if |a| == 0 {
      assert a + b == b;
    } else {
      assert (a + b)[0] == a[0];
      assert (a + b)[1..] == a[1..] + b;
      IndexOfAfterPlainPrefix(a[1..], b, c);
    }
  }

  /** Reads the part before the first `@`: a source followed by a channel tag. */
  function ParseHead(head: string, subject: string): Option<EvidenceId> {
    if HasSuffix(head, "_udp") then Some(EvidenceId(head[..|head| - 4], Dns(Udp), subject))
    else if HasSuffix(head, "_tcp") then Some(EvidenceId(head[..|head| - 4], Dns(Tcp), subject))
    else if HasSuffix(head, "_hosts") then Some(EvidenceId(head[..|head| - 6], HostsFile, subject))
    else None
  }

  /** Tokenises a file name by the first `@` and the `_udp`/`_tcp`/`_hosts`
      tag in front of it; None when the name does not have that shape. */
  function Parse(s: string): (r: Option<EvidenceId>)
  {
    if '@' !in s then None
    else
      var k := IndexOf(s, '@');
      ParseHead(s[..k], s[k + 1..])
  }

  lemma ParseHeadOfTag(source: string, c: Channel, subject: string)
    ensures ParseHead(source + "_" + Tag(c), subject) == Some(EvidenceId(source, c, subject))
  {
    var head := source + "_" + Tag(c);
    match c
    case Dns(Udp) =>
      assert head[|head| - 4..] == "_udp";
      assert head[..|head| - 4] == source;
    case Dns(Tcp) =>
      assert head[|head| - 4..] == "_tcp";
      assert head[|head| - 3] != "_udp"[1];
      assert head[..|head| - 4] == source;
    case HostsFile =>
      assert head[|head| - 1] != "_udp"[3];
      assert head[|head| - 1] != "_tcp"[3];
      assert head[|head| - 6..] == "_hosts";
      assert head[..|head| - 6] == source;
  }

  /** Every identifier whose source has no `@` reads back from its file name. */
  lemma ParseFormat(id: EvidenceId)
    requires '@' !in id.source
    ensures Parse(Format(id)) == Some(id)
  {
    var head := id.source + "_" + Tag(id.channel);
    var s := Format(id);
    assert s == head + ("@" + id.subject);
    assert '@' !in head;
    IndexOfAfterPlainPrefix(head, "@" + id.subject, '@');
    assert s[..|head|] == head && s[|head| + 1..] == id.subject;
    ParseHeadOfTag(id.source, id.channel, id.subject);
  }

  lemma FormatParseHead(head: string, subject: string)
    requires '@' !in head && ParseHead(head, subject).Some?
    ensures '@' !in ParseHead(head, subject).value.source
    ensures Format(ParseHead(head, subject).value) == head + "@" + subject
  {
    var id := ParseHead(head, subject).value;
    if HasSuffix(head, "_udp") {
      assert head == id.source + "_udp";
    } else if HasSuffix(head, "_tcp") {
      assert head == id.source + "_tcp";
    } else {
      assert head == id.source + "_hosts";
    }
  }

  /** Every file name that parses is the rendering of what it parses to,
      and the source it parses to has no `@`. */
  lemma FormatParse(s: string)
    requires Parse(s).Some?
    ensures '@' !in Parse(s).value.source
    ensures Format(Parse(s).value) == s
  {
    var k := IndexOf(s, '@');
    assert s == s[..k] + "@" + s[k + 1..];
    FormatParseHead(s[..k], s[k + 1..]);
  }

  /** The condition of `ParseFormat` is exact: an identifier reads back from
      its file name if and only if its source has no `@`. */
  lemma ParseFormatExactly(id: EvidenceId)
    ensures Parse(Format(id)) == Some(id) <==> '@' !in id.source
  {
    if '@' !in id.source {
      ParseFormat(id);
    } else if Parse(Format(id)).Some? {
      FormatParse(Format(id));
    }
  }

  /** Rendering is injective on identifiers whose sources have no `@`. */
  lemma FormatInjective(a: EvidenceId, b: EvidenceId)
    requires '@' !in a.source && '@' !in b.source
    ensures Format(a) == Format(b) <==> a == b
  {
    if Format(a) == Format(b) {
      ParseFormat(a);
      ParseFormat(b);
    }
  }
}

=== FILE: evidence_validator.dfy ===
/**
 The evidence validator of `assertFilesContain` / `assertFilesExist`: it
 fetches every expected result file from the probe pod once per tick, collects
 the files that are missing (or, when contents are checked, hold the wrong
 text), and keeps polling until a tick comes back with nothing missing.

 The REST fetch is modelled by its outcome alone. A tick is the sequence of
 outcomes for the file names, in order; a poll is the sequence of ticks that
 run before the 600-second timeout passes (the first tick runs at once, so
 there is always at least one). `strings.TrimSpace` is the parameter `trim`.
 */
module EvidenceValidator {
  import opened Wrappers

  /** What one GET of a result file through the pod proxy gave back. */
  datatype Fetch =
    | Fetched(contents: string)  // the request returned the file's bytes
    | FetchFailed                // the request failed while the tick's context was still live
    | DeadlineExceeded           // the request failed and the tick's context had expired

  /** The verdict of one tick. */
  datatype TickVerdict =
    | Clean                      // nothing missing: the poll stops with success
    | Missing(failed: seq<string>)  // these files failed this tick: poll again
    | Fatal(fileName: string)    // a fetch failed past the tick's deadline: the test fails at once

  /** The verdict of the whole poll. */
  datatype PollVerdict =
    | Passed(ticks: nat)         // the tick with this (1-based) number was clean
    | TimedOut(residual: seq<string>)  // every tick missed something; these failed last
    | Aborted(fileName: string)  // a fetch of this file failed past its tick's deadline

  /** Whether one fetch puts its file on the failed list: every failed fetch
      does, and a fetched file does only when contents are checked and its
      trimmed text is not the expected one. */
  predicate IsMiss(f: Fetch, check: bool, expected: string, trim: string -> string) {
    f.FetchFailed? || (f.Fetched? && check && trim(f.contents) != expected)
  }

  /** The failed list of a tick without deadline failures: the names whose
      fetch is a miss, in the order they were fetched. */
  function Misses(names: seq<string>, fetches: seq<Fetch>, check: bool, expected: string,
                  trim: string -> string): (failed: seq<string>)
    requires |fetches| == |names|
    ensures |failed| <= |names|
    ensures forall x :: x in failed ==> x in names
    decreases |names|
  {
    if |names| == 0 then []
    else
      (if IsMiss(fetches[0], check, expected, trim) then [names[0]] else [])
      + Misses(names[1..], fetches[1..], check, expected, trim)
  }

  /** The name of the first file whose fetch failed past the deadline, if any. */
  function FirstDeadlineFailure(names: seq<string>, fetches: seq<Fetch>): (f: Option<string>)
    requires |fetches| == |names|
    ensures f.Some? ==> f.value in names
    decreases |names|
  {
    if |names| == 0 then None
    else if fetches[0].DeadlineExceeded? then Some(names[0])
    else FirstDeadlineFailure(names[1..], fetches[1..])
  }

  /** One run of the poll condition: a deadline failure ends the test, an
      empty failed list ends the poll, anything else asks for another tick. */
  function Tick(names: seq<string>, fetches: seq<Fetch>, check: bool, expected: string,
                trim: string -> string): (v: TickVerdict)
    requires |fetches| == |names|
    ensures v.Missing? ==> |v.failed| > 0
  {
    match FirstDeadlineFailure(names, fetches)
    case Some(f) => Fatal(f)
    case None =>
      var failed := Misses(names, fetches, check, expected, trim);
      if |failed| == 0 then Clean else Missing(failed)
  }

  /* ---------------------------------------------------------------------- */
  /* The failed list of a tick                                              */
  /* ---------------------------------------------------------------------- */

  /** A name is on the failed list exactly when some fetch of it is a miss. */
  lemma {:induction false} MissesMembers(names: seq<string>, fetches: seq<Fetch>, check: bool,
                                         expected: string, trim: string -> string, x: string)
    requires |fetches| == |names|
    ensures x in Misses(names, fetches, check, expected, trim) <==>
            exists i :: 0 <= i < |names| && names[i] == x && IsMiss(fetches[i], check, expected, trim)
    decreases |names|
  {
    if |names| > 0 {
      MissesMembers(names[1..], fetches[1..], check, expected, trim, x);
      if exists i :: 0 <= i < |names| && names[i] == x && IsMiss(fetches[i], check, expected, trim) {
        var i :| 0 <= i < |names| && names[i] == x && IsMiss(fetches[i], check, expected, trim);
        if i > 0 {
          assert names[1..][i - 1] == x && fetches[1..][i - 1] == fetches[i];
        }
      }
      if x in Misses(names[1..], fetches[1..], check, expected, trim) {
        var i :| 0 <= i < |names| - 1 && names[1..][i] == x && IsMiss(fetches[1..][i], check, expected, trim);
        assert names[i + 1] == x && fetches[i + 1] == fetches[1..][i];
      }
    }
  }

  /** The failed list is empty exactly when no fetch of the tick is a miss. */
  lemma {:induction false} MissesEmpty(names: seq<string>, fetches: seq<Fetch>, check: bool,
                                       expected: string, trim: string -> string)
    requires |fetches| == |names|
    ensures |Misses(names, fetches, check, expected, trim)| == 0 <==>
            forall i :: 0 <= i < |names| ==> !IsMiss(fetches[i], check, expected, trim)
    decreases |names|
  {
    if |names| > 0 {
      MissesEmpty(names[1..], fetches[1..], check, expected, trim);
      if forall i :: 0 <= i < |names| - 1 ==> !IsMiss(fetches[1..][i], check, expected, trim) {
        forall i | 0 < i < |names| ensures !IsMiss(fetches[i], check, expected, trim) {
          assert fetches[i] == fetches[1..][i - 1];
        }
      }
    }
  }

  /** Fetching one more file extends the failed list by that file exactly
      when it is a miss: the list keeps the order of the fetches. */
  lemma {:induction false} MissesSnoc(names: seq<string>, fetches: seq<Fetch>, n: string, f: Fetch,
                                      check: bool, expected: string, trim: string -> string)
    requires |fetches| == |names|
    ensures Misses(names + [n], fetches + [f], check, expected, trim)
            == Misses(names, fetches, check, expected, trim)
               + (if IsMiss(f, check, expected, trim) then [n] else [])
    decreases |names|
  {
    if |names| == 0 {
      assert names + [n] == [n] && fetches + [f] == [f];
    } else {
      assert (names + [n])[1..] == names[1..] + [n];
      assert (fetches + [f])[1..] == fetches[1..] + [f];
      MissesSnoc(names[1..], fetches[1..], n, f, check, expected, trim);
    }
  }

  /** The first deadline failure is the name of the earliest fetch that
      failed past the deadline; there is none exactly when no fetch did. */
  lemma {:induction false} FirstDeadlineFailureSpec(names: seq<string>, fetches: seq<Fetch>)
    requires |fetches| == |names|
    ensures FirstDeadlineFailure(names, fetches).None? <==>
            forall i :: 0 <= i < |names| ==> !fetches[i].DeadlineExceeded?
    ensures FirstDeadlineFailure(names, fetches).Some? ==>
            exists i :: 0 <= i < |names| && fetches[i].DeadlineExceeded?
                        && names[i] == FirstDeadlineFailure(names, fetches).value
                        && forall j :: 0 <= j < i ==> !fetches[j].DeadlineExceeded?
    decreases |names|
  {
    if |names| > 0 && !fetches[0].DeadlineExceeded? {
      FirstDeadlineFailureSpec(names[1..], fetches[1..]);
      if FirstDeadlineFailure(names[1..], fetches[1..]).Some? {
        var i :| 0 <= i < |names| - 1 && fetches[1..][i].DeadlineExceeded?
                 && names[1..][i] == FirstDeadlineFailure(names[1..], fetches[1..]).value
                 && forall j :: 0 <= j < i ==> !fetches[1..][j].DeadlineExceeded?;
        forall j | 0 <= j < i + 1 ensures !fetches[j].DeadlineExceeded? {
          if j > 0 { assert fetches[j] == fetches[1..][j - 1]; }
        }
        assert fetches[i + 1] == fetches[1..][i] && names[i + 1] == names[1..][i];
      } else {
        forall i | 0 < i < |names| ensures !fetches[i].DeadlineExceeded? {
          assert fetches[i] == fetches[1..][i - 1];
        }
      }
    }
  }

  /** The fetch loop of the poll condition: it starts each tick from an empty
      failed list, stops at the first fetch that failed past the deadline,
      and otherwise appends every missed file in fetch order. */
  method RunTick(names: seq<string>, fetches: seq<Fetch>, check: bool, expected: string,
                 trim: string -> string) returns (v: TickVerdict)
    requires |fetches| == |names|
    ensures v == Tick(names, fetches, check, expected, trim)
  {
    var failed: seq<string> := [];
    var i := 0;
    while i < |names|
      invariant 0 <= i <= |names|
      invariant FirstDeadlineFailure(names[..i], fetches[..i]).None?
      invariant failed == Misses(names[..i], fetches[..i], check, expected, trim)
    {
      assert names[..i + 1] == names[..i] + [names[i]];
      assert fetches[..i + 1] == fetches[..i] + [fetches[i]];
      if fetches[i].DeadlineExceeded? {
        DeadlineFailureAfterClean(names[..i], fetches[..i], names[i..], fetches[i..]);
        assert names == names[..i] + names[i..] && fetches == fetches[..i] + fetches[i..];
        return Fatal(names[i]);
      }
      MissesSnoc(names[..i], fetches[..i], names[i], fetches[i], check, expected, trim);
      NoDeadlineFailureSnoc(names[..i], fetches[..i], names[i], fetches[i]);
      if IsMiss(fetches[i], check, expected, trim) {
        failed := failed + [names[i]];
      }
      i := i + 1;
    }
    assert names[..i] == names && fetches[..i] == fetches;
    if |failed| == 0 {
      return Clean;
    }
    return Missing(failed);
  }

  lemma {:induction false} NoDeadlineFailureSnoc(names: seq<string>, fetches: seq<Fetch>, n: string, f: Fetch)
    requires |fetches| == |names|
    requires FirstDeadlineFailure(names, fetches).None? && !f.DeadlineExceeded?
    ensures FirstDeadlineFailure(names + [n], fetches + [f]).None?
    decreases |names|
  {
    if |names| == 0 {
      assert names + [n] == [n] && fetches + [f] == [f];
    } else {
      assert (names + [n])[1..] == names[1..] + [n];
      assert (fetches + [f])[1..] == fetches[1..] + [f];
      NoDeadlineFailureSnoc(names[1..], fetches[1..], n, f);
    }
  }

  /** After a stretch with no deadline failure, the first one is that of the rest. */
  lemma {:induction false} DeadlineFailureAfterClean(a: seq<string>, fa: seq<Fetch>, b: seq<string>, fb: seq<Fetch>)
    requires |fa| == |a| && |fb| == |b|
    requires FirstDeadlineFailure(a, fa).None?
    ensures FirstDeadlineFailure(a + b, fa + fb) == FirstDeadlineFailure(b, fb)
    decreases |a|
  {
    if |a| == 0 {
      assert a + b == b && fa + fb == fb;
    } else {
      assert (a + b)[1..] == a[1..] + b;
      assert (fa + fb)[1..] == fa[1..] + fb;
      DeadlineFailureAfterClean(a[1..], fa[1..], b, fb);
    }
  }

  /* ---------------------------------------------------------------------- */
  /* The poll                                                               */
  /* ---------------------------------------------------------------------- */

  predicate Aligned(names: seq<string>, ticks: seq<seq<Fetch>>) {
    forall k :: 0 <= k < |ticks| ==> |ticks[k]| == |names|
  }

  /** The verdict of the poll condition on each tick. */
  function Verdicts(names: seq<string>, ticks: seq<seq<Fetch>>, check: bool, expected: string,
                    trim: string -> string): (vs: seq<TickVerdict>)
    requires Aligned(names, ticks)
    ensures |vs| == |ticks|
    ensures forall k :: 0 <= k < |ticks| ==> vs[k] == Tick(names, ticks[k], check, expected, trim)
  {
    seq(|ticks|, k requires 0 <= k < |ticks| => Tick(names, ticks[k], check, expected, trim))
  }

  /** How `wait.PollImmediate` turns the verdicts of successive ticks into
      its own: the first clean tick passes, the first fatal one aborts, and
      when every tick missed files the last tick's list is what remains. */
  function Decide(vs: seq<TickVerdict>): (v: PollVerdict)
    requires |vs| > 0
    ensures v.Passed? ==> 1 <= v.ticks <= |vs|
    decreases |vs|
  {
    match vs[0]
    case Clean => Passed(1)
    case Fatal(f) => Aborted(f)
    case Missing(failed) =>
      if |vs| == 1 then TimedOut(failed)
      else
        var rest := Decide(vs[1..]);
        if rest.Passed? then Passed(rest.ticks + 1) else rest
  }

  /** The poll over the ticks that run before the timeout. */
  function Poll(names: seq<string>, ticks: seq<seq<Fetch>>, check: bool, expected: string,
                trim: string -> string): (v: PollVerdict)
    requires |ticks| > 0 && Aligned(names, ticks)
    ensures v.Passed? ==> 1 <= v.ticks <= |ticks|
  {
    Decide(Verdicts(names, ticks, check, expected, trim))
  }

  /** `assertFilesContain`: the test passes exactly when some tick is clean
      and every tick before it missed some file. */
  function AssertFilesContain(names: seq<string>, ticks: seq<seq<Fetch>>, check: bool,
                              expected: string, trim: string -> string): (passes: bool)
    requires |ticks| > 0 && Aligned(names, ticks)
    ensures passes <==> exists k :: 0 <= k < |ticks| && Tick(names, ticks[k], check, expected, trim).Clean?
                                    && forall j :: 0 <= j < k ==> Tick(names, ticks[j], check, expected, trim).Missing?
  {
    PollPassesAtCleanTick(names, ticks, check, expected, trim);
    Poll(names, ticks, check, expected, trim).Passed?
  }

  /** `assertFilesExist`: the same poll with the content check switched off.
      It passes exactly when some tick fetched every file and every tick
      before it had a failed fetch but none past its deadline. */
  function AssertFilesExist(names: seq<string>, ticks: seq<seq<Fetch>>, trim: string -> string): (passes: bool)
    requires |ticks| > 0 && Aligned(names, ticks)
    ensures passes <==> exists k :: 0 <= k < |ticks| && AllFetched(ticks[k])
                                    && forall j :: 0 <= j < k ==> RetryableMiss(ticks[j])
  {
    ExistencePasses(names, ticks, trim);
    AssertFilesContain(names, ticks, false, "", trim)
  }

  /** Every fetch of a tick returned contents. */
  predicate AllFetched(fetches: seq<Fetch>) {
    forall i :: 0 <= i < |fetches| ==> fetches[i].Fetched?
  }

  /** Some fetch of a tick failed, but none failed past its deadline. */
  predicate RetryableMiss(fetches: seq<Fetch>) {
    && (exists i :: 0 <= i < |fetches| && fetches[i].FetchFailed?)
    && (forall i :: 0 <= i < |fetches| ==> !fetches[i].DeadlineExceeded?)
  }

  /** The poll passes exactly when some tick is clean after only misses. */
  lemma PollPassesAtCleanTick(names: seq<string>, ticks: seq<seq<Fetch>>, check: bool,
                              expected: string, trim: string -> string)
    requires |ticks| > 0 && Aligned(names, ticks)
    ensures Poll(names, ticks, check, expected, trim).Passed?
            <==> exists k :: 0 <= k < |ticks| && Tick(names, ticks[k], check, expected, trim).Clean?
                             && forall j :: 0 <= j < k ==> Tick(names, ticks[j], check, expected, trim).Missing?
  {
    var p := Poll(names, ticks, check, expected, trim);
    if p.Passed? {
      PollPassed(names, ticks, check, expected, trim, p.ticks);
      var k := p.ticks - 1;
      assert Tick(names, ticks[k], check, expected, trim).Clean?;
    }
    if exists k :: 0 <= k < |ticks| && Tick(names, ticks[k], check, expected, trim).Clean?
                   && forall j :: 0 <= j < k ==> Tick(names, ticks[j], check, expected, trim).Missing? {
      var k :| 0 <= k < |ticks| && Tick(names, ticks[k], check, expected, trim).Clean?
               && forall j :: 0 <= j < k ==> Tick(names, ticks[j], check, expected, trim).Missing?;
      PollPassed(names, ticks, check, expected, trim, k + 1);
    }
  }

  /** Without the content check, a tick is clean exactly when every fetch
      returned contents, and misses files exactly when some fetch failed
      and none failed past its deadline. */
  lemma ExistenceTick(names: seq<string>, fetches: seq<Fetch>, trim: string -> string)
    requires |fetches| == |names|
    ensures Tick(names, fetches, false, "", trim).Clean? <==> AllFetched(fetches)
    ensures Tick(names, fetches, false, "", trim).Missing? <==> RetryableMiss(fetches)
  {
    FirstDeadlineFailureSpec(names, fetches);
    MissesEmpty(names, fetches, false, "", trim);
  }

  lemma ExistencePasses(names: seq<string>, ticks: seq<seq<Fetch>>, trim: string -> string)
    requires |ticks| > 0 && Aligned(names, ticks)
    ensures (exists k :: 0 <= k < |ticks| && Tick(names, ticks[k], false, "", trim).Clean?
                         && forall j :: 0 <= j < k ==> Tick(names, ticks[j], false, "", trim).Missing?)
            <==> (exists k :: 0 <= k < |ticks| && AllFetched(ticks[k])
                              && forall j :: 0 <= j < k ==> RetryableMiss(ticks[j]))
  {
    forall k | 0 <= k < |ticks|
      ensures Tick(names, ticks[k], false, "", trim).Clean? <==> AllFetched(ticks[k])
      ensures Tick(names, ticks[k], false, "", trim).Missing? <==> RetryableMiss(ticks[k])
    {
      ExistenceTick(names, ticks[k], trim);
    }
  }

  /* ---------------------------------------------------------------------- */
  /* What the poll decides                                                  */
  /* ---------------------------------------------------------------------- */

  lemma AlignedTail(names: seq<string>, ticks: seq<seq<Fetch>>)
    requires |ticks| > 0 && Aligned(names, ticks)
    ensures Aligned(names, ticks[1..])
  {
    forall k | 0 <= k < |ticks| - 1 ensures |ticks[1..][k]| == |names| {
      assert ticks[1..][k] == ticks[k + 1];
    }
  }

  /** Deciding stops at the first clean verdict, after only misses. */
  lemma {:induction false} DecidePassed(vs: seq<TickVerdict>, n: nat)
    requires |vs| > 0
    ensures Decide(vs) == Passed(n) <==>
            1 <= n <= |vs| && vs[n - 1].Clean? && forall k :: 0 <= k < n - 1 ==> vs[k].Missing?
    decreases |vs|
  {
    if vs[0].Missing? && |vs| > 1 {
      var rest := vs[1..];
      if n >= 1 {
        DecidePassed(rest, n - 1);
      }
      if 2 <= n <= |vs| {
        assert rest[n - 2] == vs[n - 1];
        assert (forall k :: 0 <= k < n - 2 ==> rest[k].Missing?)
           <==> (forall k :: 0 < k < n - 1 ==> vs[k].Missing?) by {
          forall k | 0 <= k < n - 2 ensures rest[k] == vs[k + 1] { }
        }
      }
    }
  }

  /** Deciding times out exactly when every verdict is a miss, with the
      failed list of the last one. */
  lemma {:induction false} DecideTimedOut(vs: seq<TickVerdict>, residual: seq<string>)
    requires |vs| > 0
    ensures Decide(vs) == TimedOut(residual) <==>
            (forall k :: 0 <= k < |vs| ==> vs[k].Missing?) && vs[|vs| - 1] == Missing(residual)
    decreases |vs|
  {
    if vs[0].Missing? && |vs| > 1 {
      var rest := vs[1..];
      DecideTimedOut(rest, residual);
      assert rest[|rest| - 1] == vs[|vs| - 1];
      assert (forall k :: 0 <= k < |rest| ==> rest[k].Missing?)
         <==> (forall k :: 0 < k < |vs| ==> vs[k].Missing?) by {
        forall k | 0 <= k < |rest| ensures rest[k] == vs[k + 1] { }
      }
    }
  }

  /** Deciding aborts on a file exactly when the first verdict that is not a
      miss is fatal on it. */
  lemma {:induction false} DecideAborted(vs: seq<TickVerdict>, f: string)
    requires |vs| > 0
    ensures Decide(vs) == Aborted(f) <==>
            exists k :: 0 <= k < |vs| && vs[k] == Fatal(f) && forall j :: 0 <= j < k ==> vs[j].Missing?
    decreases |vs|
  {
    if vs[0].Missing? && |vs| > 1 {
      var rest := vs[1..];
      DecideAborted(rest, f);
      if exists k :: 0 <= k < |vs| && vs[k] == Fatal(f) && forall j :: 0 <= j < k ==> vs[j].Missing? {
        var k :| 0 <= k < |vs| && vs[k] == Fatal(f) && forall j :: 0 <= j < k ==> vs[j].Missing?;
        assert rest[k - 1] == vs[k];
        forall j | 0 <= j < k - 1 ensures rest[j].Missing? {
          assert rest[j] == vs[j + 1];
        }
      }
      if Decide(rest) == Aborted(f) {
        var k :| 0 <= k < |rest| && rest[k] == Fatal(f) && forall j :: 0 <= j < k ==> rest[j].Missing?;
        assert rest[k] == vs[k + 1];
        forall j | 0 <= j < k + 1 ensures vs[j].Missing? {
          if j > 0 { assert vs[j] == rest[j - 1]; }
        }
      }
    }
  }

  /** The poll passes at tick n exactly when tick n is clean and every tick
      before it missed some file: it stops at the first clean tick. */
  lemma PollPassed(names: seq<string>, ticks: seq<seq<Fetch>>, check: bool,
                   expected: string, trim: string -> string, n: nat)
    requires |ticks| > 0 && Aligned(names, ticks)
    ensures Poll(names, ticks, check, expected, trim) == Passed(n) <==>
            && 1 <= n <= |ticks|
            && Tick(names, ticks[n - 1], check, expected, trim).Clean?
            && forall k :: 0 <= k < n - 1 ==> Tick(names, ticks[k], check, expected, trim).Missing?
  {
    DecidePassed(Verdicts(names, ticks, check, expected, trim), n);
  }

  /** The poll times out exactly when every tick missed some file, and then
      the failed list it reports is that of the last tick alone. */
  lemma PollTimedOut(names: seq<string>, ticks: seq<seq<Fetch>>, check: bool,
                     expected: string, trim: string -> string, residual: seq<string>)
    requires |ticks| > 0 && Aligned(names, ticks)
    ensures Poll(names, ticks, check, expected, trim) == TimedOut(residual) <==>
            && (forall k :: 0 <= k < |ticks| ==> Tick(names, ticks[k], check, expected, trim).Missing?)
            && Tick(names, ticks[|ticks| - 1], check, expected, trim) == Missing(residual)
  {
    DecideTimedOut(Verdicts(names, ticks, check, expected, trim), residual);
  }

  /** The poll is aborted on a file exactly when some tick is fatal on it
      and every tick before that one missed some file. */
  lemma PollAborted(names: seq<string>, ticks: seq<seq<Fetch>>, check: bool,
                    expected: string, trim: string -> string, f: string)
    requires |ticks| > 0 && Aligned(names, ticks)
    ensures Poll(names, ticks, check, expected, trim) == Aborted(f) <==>
            exists k :: 0 <= k < |ticks| && Tick(names, ticks[k], check, expected, trim) == Fatal(f)
                        && forall j :: 0 <= j < k ==> Tick(names, ticks[j], check, expected, trim).Missing?
  {
    DecideAborted(Verdicts(names, ticks, check, expected, trim), f);
  }

  /** A tick outcome that repeats on every tick keeps missing the same files:
      the poll times out with exactly those files. */
  lemma PersistentMissTimesOut(names: seq<string>, ticks: seq<seq<Fetch>>, check: bool,
                               expected: string, trim: string -> string)
    requires |ticks| > 0 && Aligned(names, ticks)
    requires forall k :: 0 <= k < |ticks| ==> ticks[k] == ticks[0]
    requires Tick(names, ticks[0], check, expected, trim).Missing?
    ensures Poll(names, ticks, check, expected, trim)
            == TimedOut(Misses(names, ticks[0], check, expected, trim))
  {
    var v := Tick(names, ticks[0], check, expected, trim);
    assert ticks[|ticks| - 1] == ticks[0];
    PollTimedOut(names, ticks, check, expected, trim, v.failed);
  }

  /** The poll loop of `wait.PollImmediate`: run the condition at once, and
      again on each further tick, until it succeeds or fails the test; when
      no tick is left, the failed list of the last one is what remains. */
  method RunPoll(names: seq<string>, ticks: seq<seq<Fetch>>, check: bool, expected: string,
                 trim: string -> string) returns (v: PollVerdict)
    requires |ticks| > 0 && Aligned(names, ticks)
    ensures v == Poll(names, ticks, check, expected, trim)
  {
    ghost var vs := Verdicts(names, ticks, check, expected, trim);
    var k := 0;
    var t := RunTick(names, ticks[0], check, expected, trim);
    while t.Missing? && k < |ticks| - 1
      invariant 0 <= k < |ticks|
      invariant t == vs[k]
      invariant forall j :: 0 <= j < k ==> vs[j].Missing?
    {
      k := k + 1;
      t := RunTick(names, ticks[k], check, expected, trim);
    }
    DecideAt(vs, k);
    match t
    case Clean => v := Passed(k + 1);
    case Fatal(f) => v := Aborted(f);
    case Missing(failed) => v := TimedOut(failed);
  }

  /** The verdict of the poll when tick k is the first that is not a miss,
      or the last tick. */
  function Conclude(t: TickVerdict, k: nat): PollVerdict {
    match t
    case Clean => Passed(k + 1)
    case Fatal(f) => Aborted(f)
    case Missing(failed) => TimedOut(failed)
  }

  lemma DecideAt(vs: seq<TickVerdict>, k: nat)
    requires k < |vs|
    requires forall j :: 0 <= j < k ==> vs[j].Missing?
    requires vs[k].Missing? ==> k == |vs| - 1
    ensures Decide(vs) == Conclude(vs[k], k)
  {
    match vs[k]
    case Clean => DecidePassed(vs, k + 1);
    case Fatal(f) => DecideAborted(vs, f);
    case Missing(failed) => DecideTimedOut(vs, failed);
  }

  /* ---------------------------------------------------------------------- */
  /* The existence check                                                    */
  /* ---------------------------------------------------------------------- */

  /** Two fetches that both returned contents, both failed live, or both
      failed past the deadline. */
  predicate SameKind(a: Fetch, b: Fetch) {
    a.Fetched? == b.Fetched? && a.FetchFailed? == b.FetchFailed?
  }

  predicate SameKinds(a: seq<Fetch>, b: seq<Fetch>) {
    |a| == |b| && forall i :: 0 <= i < |a| ==> SameKind(a[i], b[i])
  }

  /** Without the content check, a tick depends only on which fetches
      returned contents, not on the contents, the expected text or the trim. */
  lemma {:induction false} TickIgnoresContents(names: seq<string>, a: seq<Fetch>, b: seq<Fetch>,
                                               e1: string, e2: string, t1: string -> string, t2: string -> string)
    requires |a| == |names| && SameKinds(a, b)
    ensures Tick(names, a, false, e1, t1) == Tick(names, b, false, e2, t2)
  {
    MissesIgnoreContents(names, a, b, e1, e2, t1, t2);
    DeadlineFailuresAgree(names, a, b);
  }

  lemma {:induction false} MissesIgnoreContents(names: seq<string>, a: seq<Fetch>, b: seq<Fetch>,
                                                e1: string, e2: string, t1: string -> string, t2: string -> string)
    requires |a| == |names| && SameKinds(a, b)
    ensures Misses(names, a, false, e1, t1) == Misses(names, b, false, e2, t2)
    decreases |names|
  {
    if |names| > 0 {
      assert SameKind(a[0], b[0]);
      assert SameKinds(a[1..], b[1..]) by {
        forall i | 0 <= i < |a| - 1 ensures SameKind(a[1..][i], b[1..][i]) {
          assert a[1..][i] == a[i + 1] && b[1..][i] == b[i + 1];
        }
      }
      MissesIgnoreContents(names[1..], a[1..], b[1..], e1, e2, t1, t2);
    }
  }

  lemma {:induction false} DeadlineFailuresAgree(names: seq<string>, a: seq<Fetch>, b: seq<Fetch>)
    requires |a| == |names| && SameKinds(a, b)
    ensures FirstDeadlineFailure(names, a) == FirstDeadlineFailure(names, b)
    decreases |names|
  {
    if |names| > 0 {
      assert SameKind(a[0], b[0]);
      assert SameKinds(a[1..], b[1..]) by {
        forall i | 0 <= i < |a| - 1 ensures SameKind(a[1..][i], b[1..][i]) {
          assert a[1..][i] == a[i + 1] && b[1..][i] == b[i + 1];
        }
      }
      DeadlineFailuresAgree(names[1..], a[1..], b[1..]);
    }
  }

  /** `assertFilesExist` reads only whether each file could be fetched: two
      runs whose fetches succeed and fail alike get the same verdict, whatever
      the files hold. */
  lemma ExistenceIgnoresContents(names: seq<string>, ticks1: seq<seq<Fetch>>,
                                 ticks2: seq<seq<Fetch>>, t1: string -> string, t2: string -> string)
    requires |ticks1| > 0 && Aligned(names, ticks1)
    requires |ticks2| == |ticks1|
    requires forall k :: 0 <= k < |ticks1| ==> SameKinds(ticks1[k], ticks2[k])
    ensures Aligned(names, ticks2)
    ensures Poll(names, ticks1, false, "", t1) == Poll(names, ticks2, false, "", t2)
    ensures AssertFilesExist(names, ticks1, t1) == AssertFilesExist(names, ticks2, t2)
  {
    assert Aligned(names, ticks2) by {
      forall k | 0 <= k < |ticks2| ensures |ticks2[k]| == |names| {
        assert SameKinds(ticks1[k], ticks2[k]);
      }
    }
    var vs1 := Verdicts(names, ticks1, false, "", t1);
    var vs2 := Verdicts(names, ticks2, false, "", t2);
    forall k | 0 <= k < |ticks1| ensures vs1[k] == vs2[k] {
      TickIgnoresContents(names, ticks1[k], ticks2[k], "", "", t1, t2);
    }
    assert vs1 == vs2;
  }
}

=== FILE: first_ip.dfy ===
/**
 The first address of a service CIDR, as `getFirstIP` computes it: take the
 network's address in its 4-byte form, clear the host bits with the mask, and
 increment the last byte. Addresses and masks are byte sequences as in Go's
 `net.IP` and `net.IPMask`; `To4` and `Mask` follow those methods, including
 the 16-byte IPv4-in-IPv6 forms they accept. Byte arithmetic is on `bv8`, so
 the increment wraps from 255 to 0 as Go's `ip[3]++` does.
 */
module FirstIP {
  import opened Wrappers

  /** An IP network as `net.ParseCIDR` returns it: an address and a mask. */
  datatype IPNet = IPNet(ip: seq<bv8>, mask: seq<bv8>)

  /** Why no first address came out: the address has no IPv4 form (the
      assertion `Expect(ip).NotTo(BeNil())` fails), or the mask does not fit
      the 4-byte address, so `Mask` gives nil and `ip[3]++` panics. */
  datatype FirstIPError = NotIPv4 | MaskDoesNotFit

  /** The twelve bytes in front of an IPv4 address written in 16-byte form. */
  const V4InV6Prefix: seq<bv8> := [0, 0, 0, 0, 0, 0, 0, 0, 0, 0, 0xff, 0xff]

  predicate AllFF(s: seq<bv8>) {
    forall i :: 0 <= i < |s| ==> s[i] == 0xff
  }

  /** `IP.To4`: a 4-byte address as is, the last four bytes of a 16-byte
      IPv4-mapped address, and nil for anything else. The contract is Go's
      documented promise: the result is nil unless the address is IPv4, and
      otherwise it is the address's last four bytes. */
  function To4(ip: seq<bv8>): (r: Option<seq<bv8>>)
    ensures r.Some? <==> |ip| == 4 || (|ip| == 16 && ip[..12] == V4InV6Prefix)
    ensures r.Some? ==> |r.value| == 4 && r.value == ip[|ip| - 4..]
  {
    if |ip| == 4 then Some(ip)
    else if |ip| == 16 && ip[..12] == V4InV6Prefix then Some(ip[12..])
    else None
  }

  /** The mask `IP.Mask` applies to a 4-byte address: a 16-byte mask whose
      first twelve bytes are all ones is cut to its last four. */
  function MaskFor4(mask: seq<bv8>): seq<bv8> {
    if |mask| == 16 && AllFF(mask[..12]) then mask[12..] else mask
  }

  /** `IP.Mask` on a 4-byte address: the bytewise AND with the mask, or nil
      when the mask does not have four bytes. */
  function Mask(ip: seq<bv8>, mask: seq<bv8>): (r: Option<seq<bv8>>)
    requires |ip| == 4
    ensures r.Some? <==> |MaskFor4(mask)| == 4
    ensures r.Some? ==> |r.value| == 4
                        && forall i :: 0 <= i < 4 ==> r.value[i] == ip[i] & MaskFor4(mask)[i]
  {
    var m := MaskFor4(mask);
    if |m| != 4 then None
    else Some(seq(4, i requires 0 <= i < 4 => ip[i] & m[i]))
  }

  /** `getFirstIP`: mask the IPv4 form of the network's address and add one
      to its last byte, wrapping at 256. */
  function GetFirstIP(cidr: IPNet): (r: Result<seq<bv8>, FirstIPError>)
    ensures r == Failure(NotIPv4) <==> To4(cidr.ip).None?
    ensures r == Failure(MaskDoesNotFit) <==> To4(cidr.ip).Some? && |MaskFor4(cidr.mask)| != 4
    ensures r.Success? ==> |r.value| == 4
    ensures r.Success? ==> forall i :: 0 <= i < 3 ==>
              r.value[i] == To4(cidr.ip).value[i] & MaskFor4(cidr.mask)[i]
    ensures r.Success? ==> r.value[3] == (To4(cidr.ip).value[3] & MaskFor4(cidr.mask)[3]) + 1
  {
    match To4(cidr.ip)
    case None => Failure(NotIPv4)
    case Some(ip) =>
      match Mask(ip, cidr.mask)
      case None => Failure(MaskDoesNotFit)
      case Some(masked) => Success(masked[3 := masked[3] + 1])
  }

  /** Whether an IPv4 address lies in the network of a 4-byte address and
      mask: it agrees with the network's address on every masked bit. */
  predicate InNetwork(network: seq<bv8>, mask: seq<bv8>, x: seq<bv8>)
    requires |network| == 4 && |mask| == 4 && |x| == 4
  {
    forall i :: 0 <= i < 4 ==> x[i] & mask[i] == network[i] & mask[i]
  }

  /** Masking keeps only network bits: the masked address lies in the
      network it came from, and masking it again changes nothing. */
  lemma MaskStaysInNetwork(ip: seq<bv8>, mask: seq<bv8>)
    requires |ip| == 4 && Mask(ip, mask).Some?
    ensures InNetwork(ip, MaskFor4(mask), Mask(ip, mask).value)
    ensures Mask(Mask(ip, mask).value, mask) == Mask(ip, mask)
  {
    var m := MaskFor4(mask);
    var once := Mask(ip, mask).value;
    var twice := Mask(once, mask).value;
    forall i | 0 <= i < 4
      ensures twice[i] == once[i]
    {
      MaskIdempotent(ip[i], m[i]);
    }
    assert twice == once;
  }

  /** Go's byte increment is addition modulo 256: 255 goes to 0. */
  lemma ByteIncrement(b: bv8)
    ensures (b + 1) as int == (b as int + 1) % 256
  {
  }

  /** Only the network bits matter: two addresses that agree under the same
      mask give the same first address. */
  lemma SameNetworkSameFirstIP(a: IPNet, b: IPNet)
    requires a.mask == b.mask
    requires To4(a.ip).Some? && To4(b.ip).Some?
    requires |MaskFor4(a.mask)| == 4 ==> forall i :: 0 <= i < 4 ==>
               To4(a.ip).value[i] & MaskFor4(a.mask)[i] == To4(b.ip).value[i] & MaskFor4(b.mask)[i]
    ensures GetFirstIP(a) == GetFirstIP(b)
  {
    if |MaskFor4(a.mask)| == 4 {
      var ma, mb := Mask(To4(a.ip).value, a.mask).value, Mask(To4(b.ip).value, b.mask).value;
      assert ma == mb;
    }
  }

  /** A mask whose last byte is zero (a prefix of 24 bits or fewer) makes
      the last byte of the first address exactly 1. */
  lemma ShortPrefixEndsInOne(cidr: IPNet)
    requires To4(cidr.ip).Some? && |MaskFor4(cidr.mask)| == 4
    requires MaskFor4(cidr.mask)[3] == 0
    ensures GetFirstIP(cidr).Success? && GetFirstIP(cidr).value[3] == 1
  {
  }

  /** The first address lies in the network exactly when the mask leaves the
      lowest bit of the last byte to the host part; a /32 network has no
      room for it. */
  lemma FirstIPInNetwork(cidr: IPNet)
    requires To4(cidr.ip).Some? && |MaskFor4(cidr.mask)| == 4
    ensures GetFirstIP(cidr).Success?
    ensures InNetwork(To4(cidr.ip).value, MaskFor4(cidr.mask), GetFirstIP(cidr).value)
            <==> MaskFor4(cidr.mask)[3] & 1 == 0
  {
    MaskedSuccessorInNetwork(To4(cidr.ip).value, MaskFor4(cidr.mask), GetFirstIP(cidr).value);
  }

  lemma MaskedSuccessorInNetwork(ip: seq<bv8>, m: seq<bv8>, r: seq<bv8>)
    requires |ip| == 4 && |m| == 4 && |r| == 4
    requires forall i :: 0 <= i < 3 ==> r[i] == ip[i] & m[i]
    requires r[3] == (ip[3] & m[3]) + 1
    ensures InNetwork(ip, m, r) <==> m[3] & 1 == 0
  {
    forall i | 0 <= i < 3 ensures r[i] & m[i] == ip[i] & m[i] {
      MaskIdempotent(ip[i], m[i]);
    }
    IncrementStaysUnderMask(ip[3], m[3]);
  }

  lemma MaskIdempotent(x: bv8, m: bv8)
    ensures (x & m) & m == x & m
  {
  }

  /** Adding one to a masked byte keeps its masked bits exactly when the
      mask's lowest bit is clear. */
  lemma IncrementStaysUnderMask(x: bv8, m: bv8)
    ensures ((x & m) + 1) & m == x & m <==> m & 1 == 0
  {
  }

  /** The default service CIDR 10.100.200.0/24 has first address 10.100.200.1. */
  lemma DefaultServiceCIDR()
    ensures GetFirstIP(IPNet([10, 100, 200, 0], [255, 255, 255, 0])) == Success([10, 100, 200, 1])
  {
    var masked := Mask([10, 100, 200, 0], [255, 255, 255, 0]).value;
    assert masked[0] == 10 && masked[1] == 100 && masked[2] == 200 && masked[3] == 0;
    assert masked[3 := masked[3] + 1] == [10, 100, 200, 1];
  }

  /** The same network written in 16-byte form, with a 16-byte mask, has the
      same first address. */
  lemma DefaultServiceCIDRIn16Bytes()
    ensures GetFirstIP(IPNet([0, 0, 0, 0, 0, 0, 0, 0, 0, 0, 0xff, 0xff, 10, 100, 200, 0],
                             [0xff, 0xff, 0xff, 0xff, 0xff, 0xff, 0xff, 0xff, 0xff, 0xff, 0xff, 0xff,
                              255, 255, 255, 0]))
            == Success([10, 100, 200, 1])
  {
    var ip: seq<bv8> := [0, 0, 0, 0, 0, 0, 0, 0, 0, 0, 0xff, 0xff, 10, 100, 200, 0];
    var mask: seq<bv8> := [0xff, 0xff, 0xff, 0xff, 0xff, 0xff, 0xff, 0xff, 0xff, 0xff, 0xff, 0xff,
                           255, 255, 255, 0];
    assert ip[..12] == V4InV6Prefix;
    assert AllFF(mask[..12]);
    assert MaskFor4(mask) == [255, 255, 255, 0];
    var masked := Mask([10, 100, 200, 0], mask).value;
    assert masked[0] == 10 && masked[1] == 100 && masked[2] == 200 && masked[3] == 0;
    assert masked[3 := masked[3] + 1] == [10, 100, 200, 1];
  }
}

=== FILE: go_strings.dfy ===
/**
 The few operations of Go's `strings` package that the probe compiler uses,
 over strings as sequences of characters, with the facts the compiler's
 properties rest on: Join undoes Split and Split undoes Join.
 */
module GoStrings {

  /** `strings.HasPrefix(s, prefix)`. */
  predicate HasPrefix(s: string, prefix: string) {
    |prefix| <= |s| && s[..|prefix|] == prefix
  }

  /** `strings.HasSuffix(s, suffix)`. */
  predicate HasSuffix(s: string, suffix: string) {
    |suffix| <= |s| && s[|s| - |suffix|..] == suffix
  }

  /** `w` occurs in `s` as a contiguous piece (`strings.Contains(s, w)`). */
  predicate Occurs(w: string, s: string)
    decreases |s|
  {
    HasPrefix(s, w) || (|s| > 0 && Occurs(w, s[1..]))
  }

  lemma OccursSelf(w: string)
    ensures Occurs(w, w)
  {
    assert HasPrefix(w, w);
  }

  /** An occurrence stays an occurrence when text is appended after it. */
  lemma {:induction false} OccursInLeft(w: string, a: string, b: string)
    requires Occurs(w, a)
    ensures Occurs(w, a + b)
    decreases |a|
  {
    if HasPrefix(a, w) {
      assert (a + b)[..|w|] == a[..|w|];
    } else {
      assert (a + b)[1..] == a[1..] + b;
      OccursInLeft(w, a[1..], b);
    }
  }

  /** An occurrence stays an occurrence when text is prepended before it. */
  lemma {:induction false} OccursInRight(w: string, a: string, b: string)
    requires Occurs(w, b)
    ensures Occurs(w, a + b)
    decreases |a|
  {
    if |a| == 0 {
      assert a + b == b;
    } else {
      assert (a + b)[1..] == a[1..] + b;
      OccursInRight(w, a[1..], b);
    }
  }

  /** `w` occurs in any text of the shape `a + w + b`. */
  lemma OccursInMiddle(w: string, a: string, b: string)
    ensures Occurs(w, a + w + b)
  {
    OccursSelf(w);
    OccursInLeft(w, w, b);
    OccursInRight(w, a, w + b);
    assert a + w + b == a + (w + b);
  }

  /** `strings.Split(s, sep)` for a one-character separator: the pieces
      between the separators, `sep`-count + 1 of them, so "" gives [""]. */
  function Split(s: string, sep: char): (parts: seq<string>)
    ensures |parts| >= 1
    ensures forall i :: 0 <= i < |parts| ==> sep !in parts[i]
    decreases |s|
  {
    if |s| == 0 then [""]
    else
      var rest := Split(s[1..], sep);
      if s[0] == sep then [""] + rest
      else [[s[0]] + rest[0]] + rest[1..]
  }

  /** Split yields one more piece than there are separators in the input. */
  lemma {:induction false} SplitCount(s: string, sep: char)
    ensures |Split(s, sep)| == multiset(s)[sep] + 1
    decreases |s|
  {
    if |s| > 0 {
      SplitCount(s[1..], sep);
      assert s == [s[0]] + s[1..];
    }
  }

  /** `strings.Join(parts, sep)`: "" for no parts, the separator only between parts. */
  function Join(parts: seq<string>, sep: string): string
    decreases |parts|
  {
    if |parts| == 0 then ""
    else if |parts| == 1 then parts[0]
    else parts[0] + sep + Join(parts[1..], sep)
  }

  /** Joining the pieces of a split with the same separator gives the input back. */
  lemma {:induction false} JoinSplit(s: string, sep: char)
    ensures Join(Split(s, sep), [sep]) == s
    decreases |s|
  {
    if |s| > 0 {
      var rest := Split(s[1..], sep);
      JoinSplit(s[1..], sep);
      assert s == [s[0]] + s[1..];
      if s[0] == sep {
        assert Split(s, sep) == [""] + rest;
        assert ([""] + rest)[1..] == rest;
      } else {
        var parts := Split(s, sep);
        assert parts == [[s[0]] + rest[0]] + rest[1..];
        if |rest| == 1 {
          assert Join(parts, [sep]) == [s[0]] + rest[0];
        } else {
          assert parts[1..] == rest[1..];
          assert Join(rest, [sep]) == rest[0] + [sep] + Join(rest[1..], [sep]);
        }
      }
    }
  }

  /** Splitting text that starts with a separator-free piece `p`: `p` is glued
      to the front of the first piece of the rest. */
  lemma {:induction false} SplitAfterPlainPiece(p: string, t: string, sep: char)
    requires sep !in p
    ensures Split(p + t, sep) == [p + Split(t, sep)[0]] + Split(t, sep)[1..]
    decreases |p|
  {
    var s := Split(t, sep);
    if |p| == 0 {
      assert p + t == t;
      assert p + s[0] == s[0];
      assert s == [s[0]] + s[1..];
    } else {
      var u := p + t;
      var r := Split(p[1..] + t, sep);
      assert Split(u, sep) == [[p[0]] + r[0]] + r[1..] by {
        assert u[0] == p[0] && u[1..] == p[1..] + t;
      }
      assert r == [p[1..] + s[0]] + s[1..] by {
        SplitAfterPlainPiece(p[1..], t, sep);
      }
      assert [p[0]] + (p[1..] + s[0]) == p + s[0];
    }
  }

  /** Splitting the join of separator-free pieces gives the pieces back. */
  lemma {:induction false} SplitJoin(parts: seq<string>, sep: char)
    requires |parts| >= 1
    requires forall i :: 0 <= i < |parts| ==> sep !in parts[i]
    ensures Split(Join(parts, [sep]), sep) == parts
    decreases |parts|
  {
    if |parts| == 1 {
      SplitAfterPlainPiece(parts[0], "", sep);
      assert parts[0] + "" == parts[0];
    } else {
      var tail := Join(parts[1..], [sep]);
      SplitJoin(parts[1..], sep);
      SplitAfterPlainPiece(parts[0], [sep] + tail, sep);
      assert parts[0] + [sep] + tail == parts[0] + ([sep] + tail);
      assert ([sep] + tail)[1..] == tail;
      assert Split([sep] + tail, sep) == [""] + parts[1..];
      assert parts[0] + "" == parts[0];
      assert parts == [parts[0]] + parts[1..];
    }
  }
}

=== FILE: probe_compiler.dfy ===
/**
 The probe-command compiler of the DNS conformance check: from the names to
 resolve, the host entries, an optional reverse-lookup address, a file-name
 prefix, a namespace and a cluster domain it builds the shell program a
 querier container runs and the ordered list of result files that program
 writes into /results.

 The program is modelled as a list of typed lookup steps rendered to the
 exact text the Go code concatenates; the file names are the write targets
 of those steps, in the order the Go code appends them.
 */
module ProbeCompiler {
  import opened GoStrings
  import opened EvidenceIds

  /* ---------------------------------------------------------------------- */
  /* reverseArray                                                           */
  /* ---------------------------------------------------------------------- */

  /** The reversal of a list: element i is the input's element |s|-1-i. */
  function Reversed(s: seq<string>): (r: seq<string>)
    ensures |r| == |s|
    ensures forall i :: 0 <= i < |s| ==> r[i] == s[|s| - 1 - i]
    decreases |s|
  {
    if |s| == 0 then [] else Reversed(s[1..]) + [s[0]]
  }

  /** Reversing twice gives back the original list. */
  lemma ReversedTwice(s: seq<string>)
    ensures Reversed(Reversed(s)) == s
  {
    var r := Reversed(Reversed(s));
    assert forall i :: 0 <= i < |s| ==> r[i] == s[i];
  }

  /** reverseArray: swaps element i with element |arr|-1-i for i below
      |arr|/2, which leaves the mirror image that Reversed describes. */
  method ReverseArray(arr: seq<string>) returns (r: seq<string>)
    ensures |r| == |arr|
    ensures r == Reversed(arr)
  {
    r := arr;
    var i := 0;
    while i < |arr| / 2
      invariant 0 <= i <= |arr| / 2
      invariant |r| == |arr|
      invariant forall k :: 0 <= k < i ==> r[k] == arr[|arr| - 1 - k] && r[|arr| - 1 - k] == arr[k]
      invariant forall k :: i <= k < |arr| - i ==> r[k] == arr[k]
    {
      var j := |arr| - i - 1;
      r := r[i := r[j]][j := r[i]];
      i := i + 1;
    }
  }

  /* ---------------------------------------------------------------------- */
  /* Lookup kinds and the reverse-lookup name                               */
  /* ---------------------------------------------------------------------- */

  /** The DNS record type a `dig` step asks for. */
  datatype RecordType = A | SRV | PTR

  function RecordName(t: RecordType): string {
    match t
    case A => "A"
    case SRV => "SRV"
    case PTR => "PTR"
  }

  /** Names with a leading underscore are service names and are looked up as
      SRV records; every other name is looked up as an A record. */
  function LookupType(name: string): (t: RecordType)
    ensures t == SRV <==> |name| > 0 && name[0] == '_'
    ensures t == A <==> !(|name| > 0 && name[0] == '_')
  {
    if HasPrefix(name, "_") then SRV else A
  }

  const InAddrArpa := ".in-addr.arpa."

  /** The IN-ADDR.ARPA name of an address (section 3.5 of RFC 1035): its
      dot-separated parts in reverse order, joined by dots, then the
      `.in-addr.arpa.` suffix. */
  function PtrQueryName(ip: string): (name: string)
    ensures HasSuffix(name, InAddrArpa)
  {
    var head := Join(Reversed(Split(ip, '.')), ".");
    assert (head + InAddrArpa)[|head|..] == InAddrArpa;
    head + InAddrArpa
  }

  /** Appending a last part to a non-empty join adds the separator and the part. */
  lemma {:induction false} JoinAppend(parts: seq<string>, last: string, sep: string)
    requires |parts| >= 1
    ensures Join(parts + [last], sep) == Join(parts, sep) + sep + last
    decreases |parts|
  {
    if |parts| == 1 {
      assert parts + [last] == [parts[0], last];
    } else {
      assert (parts + [last])[1..] == parts[1..] + [last];
      JoinAppend(parts[1..], last, sep);
    }
  }

  /** Joining after appending the labels `in-addr`, `arpa` and the empty root
      label adds the suffix `.in-addr.arpa.`. */
  lemma JoinWithArpaLabels(parts: seq<string>)
    requires |parts| >= 1
    ensures Join(parts + ["in-addr", "arpa", ""], ".") == Join(parts, ".") + InAddrArpa
  {
    JoinAppendThree(parts, "in-addr", "arpa", "", ".");
    SuffixText(Join(parts, "."));
  }

  lemma JoinAppendThree(parts: seq<string>, a: string, b: string, c: string, sep: string)
    requires |parts| >= 1
    ensures Join(parts + [a, b, c], sep) == Join(parts, sep) + sep + a + sep + b + sep + c
  {
    JoinAppend(parts, a, sep);
    JoinAppend(parts + [a], b, sep);
    JoinAppend(parts + [a] + [b], c, sep);
    assert parts + [a] + [b] + [c] == parts + [a, b, c];
  }

  lemma SuffixText(j: string)
    ensures j + "." + "in-addr" + "." + "arpa" + "." + "" == j + InAddrArpa
  {
    assert "." + "in-addr" + "." + "arpa" + "." + "" == InAddrArpa;
  }

  /** The labels of the reverse-lookup name are the address's parts reversed,
      followed by `in-addr`, `arpa` and the empty root label. */
  lemma PtrQueryNameLabels(ip: string)
    ensures Split(PtrQueryName(ip), '.') == Reversed(Split(ip, '.')) + ["in-addr", "arpa", ""]
  {
    var split := Split(ip, '.');
    var labels := Reversed(split) + ["in-addr", "arpa", ""];
    JoinWithArpaLabels(Reversed(split));
    ArpaLabelsDotFree(split);
    SplitJoin(labels, '.');
  }

  lemma ArpaLabelsDotFree(parts: seq<string>)
    requires forall i :: 0 <= i < |parts| ==> '.' !in parts[i]
    ensures forall i :: 0 <= i < |parts| + 3 ==> '.' !in (Reversed(parts) + ["in-addr", "arpa", ""])[i]
  {
    var labels := Reversed(parts) + ["in-addr", "arpa", ""];
    forall i | 0 <= i < |labels|
      ensures '.' !in labels[i]
    {
      if i < |parts| {
        assert labels[i] == parts[|parts| - 1 - i];
      }
    }
  }

  /** For an address written as dot-free parts joined by dots, the
      reverse-lookup name is those parts in reverse order plus the suffix. */
  lemma PtrQueryNameOfParts(parts: seq<string>)
    requires |parts| >= 1
    requires forall i :: 0 <= i < |parts| ==> '.' !in parts[i]
    ensures PtrQueryName(Join(parts, ".")) == Join(Reversed(parts), ".") + InAddrArpa
  {
    SplitJoin(parts, '.');
  }

  /* ---------------------------------------------------------------------- */
  /* Steps and their rendering                                              */
  /* ---------------------------------------------------------------------- */

  /** One obligation of the probe program. */
  datatype Step =
    | Dig(transport: Transport, query: string, record: RecordType, target: EvidenceId)
    | GetentHosts(name: string, target: EvidenceId)
    | BindPodARecord(namespace: string, domain: string)

  const LoopHeader := "for i in `seq 1 600`; do "
  const LoopFooter := "sleep 1; done"
  /** The shell variable the pod A record name is bound to at run time. */
  const PodARecordVar := "$${podARec}"

  /** The command that records a success under a result file. */
  function WriteResult(fileName: string): string {
    "echo OK > /results/" + fileName + ";"
  }

  /** The `dig` invocation a DNS step runs: `+notcp` for UDP, `+tcp` for TCP. */
  function DigCommand(t: Transport, query: string, record: RecordType): string {
    match t
    case Udp => "dig +notcp +noall +answer +search " + query + " " + RecordName(record) + ")"
    case Tcp => "dig +tcp +noall +answer +search " + query + " " + RecordName(record) + ")"
  }

  /** The `getent` invocation a host-entry step runs. */
  function GetentCommand(name: string): string {
    "getent hosts " + name + ")"
  }

  /** The tail of the pod A record name: `.<namespace>.pod.<domain>`. */
  function PodARecordDomain(namespace: string, domain: string): string {
    "." + namespace + ".pod." + domain
  }

  /** The shell text of one step. */
  function Render(step: Step): string {
    match step
    case Dig(t, q, rt, id) =>
      "check=\"$$(" + DigCommand(t, q, rt) + "\" && test -n \"$$check\" && " + WriteResult(Format(id))
    case GetentHosts(n, id) =>
      "test -n \"$$(" + GetentCommand(n) + "\" && " + WriteResult(Format(id))
    case BindPodARecord(ns, d) =>
      "podARec=$$(hostname -i| awk -F. '{print $$1\"-\"$$2\"-\"$$3\"-\"$$4\"" + PodARecordDomain(ns, d) + "\"}');"
  }

  function RenderAll(steps: seq<Step>): string
    decreases |steps|
  {
    if |steps| == 0 then "" else Render(steps[0]) + RenderAll(steps[1..])
  }

  /** The result files the steps write, in step order. */
  function Targets(steps: seq<Step>): (ids: seq<EvidenceId>)
    ensures |ids| <= |steps|
    decreases |steps|
  {
    if |steps| == 0 then []
    else if steps[0].BindPodARecord? then Targets(steps[1..])
    else [steps[0].target] + Targets(steps[1..])
  }

  lemma {:induction false} TargetsAppend(a: seq<Step>, b: seq<Step>)
    ensures Targets(a + b) == Targets(a) + Targets(b)
    decreases |a|
  {
    if |a| == 0 {
      assert a + b == b;
    } else {
      assert (a + b)[1..] == a[1..] + b;
      TargetsAppend(a[1..], b);
    }
  }

  lemma {:induction false} RenderAllAppend(a: seq<Step>, b: seq<Step>)
    ensures RenderAll(a + b) == RenderAll(a) + RenderAll(b)
    decreases |a|
  {
    if |a| == 0 {
      assert a + b == b;
    } else {
      assert (a + b)[1..] == a[1..] + b;
      RenderAllAppend(a[1..], b);
    }
  }

  /** Steps that all write a result file. */
  predicate AllWrite(steps: seq<Step>) {
    forall i :: 0 <= i < |steps| ==> !steps[i].BindPodARecord?
  }

  /** When every step writes, the targets are the steps' targets one for one. */
  lemma {:induction false} TargetsOfWritingSteps(steps: seq<Step>)
    requires AllWrite(steps)
    ensures |Targets(steps)| == |steps|
    ensures forall i :: 0 <= i < |steps| ==> Targets(steps)[i] == steps[i].target
    decreases |steps|
  {
    if |steps| > 0 {
      TargetsOfWritingSteps(steps[1..]);
    }
  }

  /** A writing step's text ends with the write of its target. */
  lemma WriteInStep(step: Step)
    requires !step.BindPodARecord?
    ensures Occurs(WriteResult(Format(step.target)), Render(step))
  {
    var w := WriteResult(Format(step.target));
    var before := match step
      case Dig(t, q, rt, _) => "check=\"$$(" + DigCommand(t, q, rt) + "\" && test -n \"$$check\" && "
      case GetentHosts(n, _) => "test -n \"$$(" + GetentCommand(n) + "\" && ";
    assert Render(step) == before + w + "";
    OccursInMiddle(w, before, "");
  }

  /** `text` writes the result file of every identifier in `ids`. */
  predicate WritesAll(ids: seq<EvidenceId>, text: string) {
    forall i :: 0 <= i < |ids| ==> Occurs(WriteResult(Format(ids[i])), text)
  }

  lemma WritesAllConcat(a: seq<EvidenceId>, b: seq<EvidenceId>, x: string, y: string)
    requires WritesAll(a, x) && WritesAll(b, y)
    ensures WritesAll(a + b, x + y)
  {
    forall i | 0 <= i < |a + b|
      ensures Occurs(WriteResult(Format((a + b)[i])), x + y)
    {
      if i < |a| {
        OccursInLeft(WriteResult(Format(a[i])), x, y);
      } else {
        OccursInRight(WriteResult(Format(b[i - |a|])), x, y);
      }
    }
  }

  /** Putting a step in front of a list keeps every write of the list and
      adds the step's own write, if it has one. */
  lemma WritesAllCons(step: Step, ids: seq<EvidenceId>, text: string)
    requires WritesAll(ids, text)
    ensures WritesAll((if step.BindPodARecord? then [] else [step.target]) + ids, Render(step) + text)
  {
    var head := if step.BindPodARecord? then [] else [step.target];
    assert WritesAll(head, Render(step)) by {
      if !step.BindPodARecord? {
        WriteInStep(step);
      }
    }
    WritesAllConcat(head, ids, Render(step), text);
  }

  /** The rendered text writes every target of the steps. */
  lemma {:induction false} RenderAllWritesTargets(steps: seq<Step>)
    ensures WritesAll(Targets(steps), RenderAll(steps))
    decreases |steps|
  {
    if |steps| > 0 {
      var head := if steps[0].BindPodARecord? then [] else [steps[0].target];
      assert Targets(steps) == head + Targets(steps[1..]);
      assert RenderAll(steps) == Render(steps[0]) + RenderAll(steps[1..]);
      RenderAllWritesTargets(steps[1..]);
      WritesAllCons(steps[0], Targets(steps[1..]), RenderAll(steps[1..]));
    }
  }

  /* ---------------------------------------------------------------------- */
  /* createProbeCommand                                                     */
  /* ---------------------------------------------------------------------- */

  /** A compiled probe: the program text and the result files it writes. */
  datatype ProbeCommand = ProbeCommand(program: string, fileNames: seq<string>)

  /** UDP then TCP lookup of each name, in input order. */
  function NameSteps(names: seq<string>, prefix: string): (steps: seq<Step>)
    ensures |steps| == 2 * |names| && AllWrite(steps)
    ensures forall k :: 0 <= k < |names| ==>
      && steps[2 * k] == Dig(Udp, names[k], LookupType(names[k]), EvidenceId(prefix, Dns(Udp), names[k]))
      && steps[2 * k + 1] == Dig(Tcp, names[k], LookupType(names[k]), EvidenceId(prefix, Dns(Tcp), names[k]))
    decreases |names|
  {
    if |names| == 0 then []
    else
      var name := names[0];
      var lookup := LookupType(name);
      [Dig(Udp, name, lookup, EvidenceId(prefix, Dns(Udp), name)),
       Dig(Tcp, name, lookup, EvidenceId(prefix, Dns(Tcp), name))]
      + NameSteps(names[1..], prefix)
  }

  /** One `getent hosts` lookup per host entry, in input order. */
  function HostSteps(hostEntries: seq<string>, prefix: string): (steps: seq<Step>)
    ensures |steps| == |hostEntries| && AllWrite(steps)
    ensures forall k :: 0 <= k < |hostEntries| ==>
      steps[k] == GetentHosts(hostEntries[k], EvidenceId(prefix, HostsFile, hostEntries[k]))
    decreases |hostEntries|
  {
    if |hostEntries| == 0 then []
    else
      [GetentHosts(hostEntries[0], EvidenceId(prefix, HostsFile, hostEntries[0]))]
      + HostSteps(hostEntries[1..], prefix)
  }

  /** Bind the pod's own A record name, then look it up over UDP and TCP. */
  function PodARecordSteps(prefix: string, namespace: string, domain: string): seq<Step> {
    [BindPodARecord(namespace, domain),
     Dig(Udp, PodARecordVar, A, EvidenceId(prefix, Dns(Udp), "PodARecord")),
     Dig(Tcp, PodARecordVar, A, EvidenceId(prefix, Dns(Tcp), "PodARecord"))]
  }

  /** Reverse lookups of the address over UDP and TCP; their result files
      are named after the address, not after the prefix. */
  function PtrSteps(ptrLookupIP: string): seq<Step> {
    var query := PtrQueryName(ptrLookupIP);
    [Dig(Udp, query, PTR, EvidenceId(ptrLookupIP, Dns(Udp), "PTR")),
     Dig(Tcp, query, PTR, EvidenceId(ptrLookupIP, Dns(Tcp), "PTR"))]
  }

  function ProbeSteps(names: seq<string>, hostEntries: seq<string>, ptrLookupIP: string,
                      prefix: string, namespace: string, domain: string): seq<Step>
  {
    NameSteps(names, prefix) + HostSteps(hostEntries, prefix)
    + PodARecordSteps(prefix, namespace, domain)
    + (if |ptrLookupIP| > 0 then PtrSteps(ptrLookupIP) else [])
  }

  function FormatAll(ids: seq<EvidenceId>): (names: seq<string>)
    ensures |names| == |ids|
    ensures forall i :: 0 <= i < |ids| ==> names[i] == Format(ids[i])
  {
    seq(|ids|, i requires 0 <= i < |ids| => Format(ids[i]))
  }

  lemma FormatShape(source: string, c: Channel, subject: string)
    ensures c == Dns(Udp) ==> Format(EvidenceId(source, c, subject)) == source + "_udp@" + subject
    ensures c == Dns(Tcp) ==> Format(EvidenceId(source, c, subject)) == source + "_tcp@" + subject
    ensures c == HostsFile ==> Format(EvidenceId(source, c, subject)) == source + "_hosts@" + subject
  {
    assert "_" + "udp" + "@" == "_udp@";
    assert "_" + "tcp" + "@" == "_tcp@";
    assert "_" + "hosts" + "@" == "_hosts@";
  }

  /** A file name with a literal subject is the source followed by one literal. */
  lemma FormatLiteral(source: string, c: Channel, subject: string, rest: string)
    requires rest == "_" + Tag(c) + "@" + subject
    ensures Format(EvidenceId(source, c, subject)) == source + rest
  {
    assert source + "_" + Tag(c) + "@" + subject == source + ("_" + Tag(c) + "@" + subject);
  }

  /** The write targets of the whole step list, section by section. */
  lemma ProbeTargets(names: seq<string>, hostEntries: seq<string>, ptrLookupIP: string,
                     prefix: string, namespace: string, domain: string)
    ensures Targets(ProbeSteps(names, hostEntries, ptrLookupIP, prefix, namespace, domain))
      == Targets(NameSteps(names, prefix)) + Targets(HostSteps(hostEntries, prefix))
         + TailTargets(prefix, ptrLookupIP)
  {
    var n := NameSteps(names, prefix);
    var h := HostSteps(hostEntries, prefix);
    var p := PodARecordSteps(prefix, namespace, domain);
    var q := if |ptrLookupIP| > 0 then PtrSteps(ptrLookupIP) else [];
    TargetsAppend(n, h);
    TargetsAppend(n + h, p);
    TargetsAppend(n + h + p, q);
    assert Targets(p) == [EvidenceId(prefix, Dns(Udp), "PodARecord"), EvidenceId(prefix, Dns(Tcp), "PodARecord")] by {
      assert p[1..][1..][1..] == [];
      assert Targets(p[1..][1..]) == [p[2].target];
      assert Targets(p[1..]) == [p[1].target, p[2].target];
    }
    if |ptrLookupIP| > 0 {
      assert q[1..][1..] == [];
      assert Targets(q[1..]) == [q[1].target];
    }
  }

  /** createProbeCommand: the program text and its result files, two per
      name, one per host entry, two for the pod A record and, only for a
      non-empty reverse-lookup address, two PTR files; the program is one
      `seq 1 600` loop. FileNameLayout states the order and shape of the
      files, ProgramWritesEveryFile that the loop writes each of them. */
  function CreateProbeCommand(names: seq<string>, hostEntries: seq<string>, ptrLookupIP: string,
                              prefix: string, namespace: string, domain: string): (r: ProbeCommand)
    ensures |r.fileNames| == 2 * |names| + |hostEntries| + 2 + (if |ptrLookupIP| > 0 then 2 else 0)
    ensures HasPrefix(r.program, "for i in `seq 1 600`; do ")
    ensures HasSuffix(r.program, "sleep 1; done")
  {
    var steps := ProbeSteps(names, hostEntries, ptrLookupIP, prefix, namespace, domain);
    var program := LoopHeader + RenderAll(steps) + LoopFooter;
    var fileNames := FormatAll(Targets(steps));
    FileNameCount(names, hostEntries, ptrLookupIP, prefix, namespace, domain);
    LoopFrame(program, RenderAll(steps));
    ProbeCommand(program, fileNames)
  }

  lemma FileNameCount(names: seq<string>, hostEntries: seq<string>, ptrLookupIP: string,
                      prefix: string, namespace: string, domain: string)
    ensures |Targets(ProbeSteps(names, hostEntries, ptrLookupIP, prefix, namespace, domain))|
      == 2 * |names| + |hostEntries| + 2 + (if |ptrLookupIP| > 0 then 2 else 0)
  {
    ProbeTargets(names, hostEntries, ptrLookupIP, prefix, namespace, domain);
    NameTargets(names, prefix);
    HostTargets(hostEntries, prefix);
  }

  lemma LoopFrame(program: string, body: string)
    requires program == LoopHeader + body + LoopFooter
    ensures HasPrefix(program, "for i in `seq 1 600`; do ")
    ensures HasSuffix(program, "sleep 1; done")
  {
    assert program[..|LoopHeader|] == LoopHeader;
    assert program[|program| - |LoopFooter|..] == LoopFooter;
  }

  /** The result files of createProbeCommand, in order: `<prefix>_udp@<name>`
      and `<prefix>_tcp@<name>` per name; `<prefix>_hosts@<entry>` per host
      entry; `<prefix>_udp@PodARecord` and `<prefix>_tcp@PodARecord`; and,
      only for a non-empty reverse-lookup address, `<ip>_udp@PTR` and
      `<ip>_tcp@PTR`. */
  lemma FileNameLayout(names: seq<string>, hostEntries: seq<string>, ptrLookupIP: string,
                       prefix: string, namespace: string, domain: string)
    ensures var r := CreateProbeCommand(names, hostEntries, ptrLookupIP, prefix, namespace, domain);
            var m := 2 * |names| + |hostEntries|;
            && |r.fileNames| == m + 2 + (if |ptrLookupIP| > 0 then 2 else 0)
            && (forall k :: 0 <= k < |names| ==>
                  && r.fileNames[2 * k] == prefix + "_udp@" + names[k]
                  && r.fileNames[2 * k + 1] == prefix + "_tcp@" + names[k])
            && (forall k :: 0 <= k < |hostEntries| ==>
                  r.fileNames[2 * |names| + k] == prefix + "_hosts@" + hostEntries[k])
            && r.fileNames[m] == prefix + "_udp@PodARecord"
            && r.fileNames[m + 1] == prefix + "_tcp@PodARecord"
            && (|ptrLookupIP| > 0 ==>
                  && r.fileNames[m + 2] == ptrLookupIP + "_udp@PTR"
                  && r.fileNames[m + 3] == ptrLookupIP + "_tcp@PTR")
  {
    var tn := Targets(NameSteps(names, prefix));
    var th := Targets(HostSteps(hostEntries, prefix));
    ProbeTargets(names, hostEntries, ptrLookupIP, prefix, namespace, domain);
    NameTargets(names, prefix);
    HostTargets(hostEntries, prefix);
    SectionFileNames(names, hostEntries, ptrLookupIP, prefix, tn, th,
                     CreateProbeCommand(names, hostEntries, ptrLookupIP, prefix, namespace, domain).fileNames);
  }

  /** The file names of the name, host-entry and tail sections of the targets. */
  lemma SectionFileNames(names: seq<string>, hostEntries: seq<string>, ptrLookupIP: string, prefix: string,
                         tn: seq<EvidenceId>, th: seq<EvidenceId>, fileNames: seq<string>)
    requires |tn| == 2 * |names|
    requires forall k :: 0 <= k < |names| ==>
      tn[2 * k] == EvidenceId(prefix, Dns(Udp), names[k]) && tn[2 * k + 1] == EvidenceId(prefix, Dns(Tcp), names[k])
    requires |th| == |hostEntries|
    requires forall k :: 0 <= k < |hostEntries| ==> th[k] == EvidenceId(prefix, HostsFile, hostEntries[k])
    requires fileNames == FormatAll(tn + th + TailTargets(prefix, ptrLookupIP))
    ensures var m := 2 * |names| + |hostEntries|;
            && |fileNames| == m + 2 + (if |ptrLookupIP| > 0 then 2 else 0)
            && (forall k :: 0 <= k < |names| ==>
                  && fileNames[2 * k] == prefix + "_udp@" + names[k]
                  && fileNames[2 * k + 1] == prefix + "_tcp@" + names[k])
            && (forall k :: 0 <= k < |hostEntries| ==>
                  fileNames[2 * |names| + k] == prefix + "_hosts@" + hostEntries[k])
            && fileNames[m] == prefix + "_udp@PodARecord"
            && fileNames[m + 1] == prefix + "_tcp@PodARecord"
            && (|ptrLookupIP| > 0 ==>
                  && fileNames[m + 2] == ptrLookupIP + "_udp@PTR"
                  && fileNames[m + 3] == ptrLookupIP + "_tcp@PTR")
  {
    var tail := TailTargets(prefix, ptrLookupIP);
    NameFileNames(names, prefix, tn, th, tail, fileNames);
    forall k | 0 <= k < |hostEntries|
      ensures fileNames[2 * |names| + k] == prefix + "_hosts@" + hostEntries[k]
    {
      HostFileName(hostEntries, prefix, tn, th, tail, fileNames, k);
    }
    TailFileNames(prefix, ptrLookupIP, tn + th, fileNames, 2 * |names| + |hostEntries|);
  }

  /** The program of createProbeCommand writes every one of its result files
      with `echo OK > /results/<file>;`. */
  lemma ProgramWritesEveryFile(names: seq<string>, hostEntries: seq<string>, ptrLookupIP: string,
                               prefix: string, namespace: string, domain: string)
    ensures var r := CreateProbeCommand(names, hostEntries, ptrLookupIP, prefix, namespace, domain);
            forall i :: 0 <= i < |r.fileNames| ==>
              Occurs("echo OK > /results/" + r.fileNames[i] + ";", r.program)
  {
    var steps := ProbeSteps(names, hostEntries, ptrLookupIP, prefix, namespace, domain);
    ProgramFacts(steps, FormatAll(Targets(steps)), RenderAll(steps), LoopHeader + RenderAll(steps) + LoopFooter);
  }

  /** The fixed tail of the target list: the pod A record pair, then the
      PTR pair when a reverse-lookup address is given. */
  function TailTargets(prefix: string, ptrLookupIP: string): seq<EvidenceId> {
    [EvidenceId(prefix, Dns(Udp), "PodARecord"), EvidenceId(prefix, Dns(Tcp), "PodARecord")]
    + (if |ptrLookupIP| > 0
       then [EvidenceId(ptrLookupIP, Dns(Udp), "PTR"), EvidenceId(ptrLookupIP, Dns(Tcp), "PTR")]
       else [])
  }

  /** The targets of the name steps: UDP then TCP identifier per name. */
  lemma NameTargets(names: seq<string>, prefix: string)
    ensures |Targets(NameSteps(names, prefix))| == 2 * |names|
    ensures forall k :: 0 <= k < |names| ==>
      && Targets(NameSteps(names, prefix))[2 * k] == EvidenceId(prefix, Dns(Udp), names[k])
      && Targets(NameSteps(names, prefix))[2 * k + 1] == EvidenceId(prefix, Dns(Tcp), names[k])
  {
    TargetsOfWritingSteps(NameSteps(names, prefix));
  }

  /** The targets of the host steps: one `hosts` identifier per entry. */
  lemma HostTargets(hostEntries: seq<string>, prefix: string)
    ensures |Targets(HostSteps(hostEntries, prefix))| == |hostEntries|
    ensures forall k :: 0 <= k < |hostEntries| ==>
      Targets(HostSteps(hostEntries, prefix))[k] == EvidenceId(prefix, HostsFile, hostEntries[k])
  {
    TargetsOfWritingSteps(HostSteps(hostEntries, prefix));
  }

  /** The file names of the name section: UDP then TCP file per name. */
  lemma NameFileNames(names: seq<string>, prefix: string, tn: seq<EvidenceId>, th: seq<EvidenceId>,
                      tail: seq<EvidenceId>, fileNames: seq<string>)
    requires |tn| == 2 * |names|
    requires forall k :: 0 <= k < |names| ==>
      tn[2 * k] == EvidenceId(prefix, Dns(Udp), names[k]) && tn[2 * k + 1] == EvidenceId(prefix, Dns(Tcp), names[k])
    requires fileNames == FormatAll(tn + th + tail)
    ensures forall k :: 0 <= k < |names| ==>
      && fileNames[2 * k] == prefix + "_udp@" + names[k]
      && fileNames[2 * k + 1] == prefix + "_tcp@" + names[k]
  {
    forall k | 0 <= k < |names|
      ensures fileNames[2 * k] == prefix + "_udp@" + names[k]
      ensures fileNames[2 * k + 1] == prefix + "_tcp@" + names[k]
    {
      assert (tn + th + tail)[2 * k] == tn[2 * k];
      assert (tn + th + tail)[2 * k + 1] == tn[2 * k + 1];
      FormatShape(prefix, Dns(Udp), names[k]);
      FormatShape(prefix, Dns(Tcp), names[k]);
    }
  }

  /** The file name of host entry k: `<prefix>_hosts@<entry>`. */
  lemma HostFileName(hostEntries: seq<string>, prefix: string, tn: seq<EvidenceId>, th: seq<EvidenceId>,
                     tail: seq<EvidenceId>, fileNames: seq<string>, k: nat)
    requires k < |hostEntries| && |th| == |hostEntries|
    requires th[k] == EvidenceId(prefix, HostsFile, hostEntries[k])
    requires fileNames == FormatAll(tn + th + tail)
    ensures |tn| + k < |fileNames| && fileNames[|tn| + k] == prefix + "_hosts@" + hostEntries[k]
  {
    assert (tn + th + tail)[|tn| + k] == th[k];
    FormatShape(prefix, HostsFile, hostEntries[k]);
  }

  /** The file names of the fixed tail: the pod A record pair, then the PTR pair. */
  lemma TailFileNames(prefix: string, ptrLookupIP: string, front: seq<EvidenceId>, fileNames: seq<string>, m: nat)
    requires |front| == m
    requires fileNames == FormatAll(front + TailTargets(prefix, ptrLookupIP))
    ensures |fileNames| == m + 2 + (if |ptrLookupIP| > 0 then 2 else 0)
    ensures fileNames[m] == prefix + "_udp@PodARecord"
    ensures fileNames[m + 1] == prefix + "_tcp@PodARecord"
    ensures |ptrLookupIP| > 0 ==>
      && fileNames[m + 2] == ptrLookupIP + "_udp@PTR"
      && fileNames[m + 3] == ptrLookupIP + "_tcp@PTR"
  {
    var tail := TailTargets(prefix, ptrLookupIP);
    assert (front + tail)[m] == tail[0] && (front + tail)[m + 1] == tail[1];
    FormatLiteral(prefix, Dns(Udp), "PodARecord", "_udp@PodARecord");
    FormatLiteral(prefix, Dns(Tcp), "PodARecord", "_tcp@PodARecord");
    if |ptrLookupIP| > 0 {
      assert (front + tail)[m + 2] == tail[2] && (front + tail)[m + 3] == tail[3];
      FormatLiteral(ptrLookupIP, Dns(Udp), "PTR", "_udp@PTR");
      FormatLiteral(ptrLookupIP, Dns(Tcp), "PTR", "_tcp@PTR");
    }
  }

  /** The program-text half of createProbeCommand's contract. */
  lemma ProgramFacts(steps: seq<Step>, fileNames: seq<string>, body: string, program: string)
    requires fileNames == FormatAll(Targets(steps))
    requires body == RenderAll(steps)
    requires program == LoopHeader + body + LoopFooter
    ensures forall i :: 0 <= i < |fileNames| ==>
      Occurs("echo OK > /results/" + fileNames[i] + ";", program)
  {
    RenderAllWritesTargets(steps);
    forall i | 0 <= i < |fileNames|
      ensures Occurs("echo OK > /results/" + fileNames[i] + ";", program)
    {
      var w := WriteResult(fileNames[i]);
      OccursInRight(w, LoopHeader, body);
      OccursInLeft(w, LoopHeader + body, LoopFooter);
    }
  }
}

=== FILE: probe_properties.dfy ===
/**
 Properties of the compiled probe that relate several parts of its output:
 every step's text is in the program, exactly one step (the pod A record
 binding) writes no result file, the lookups the program performs, and when
 the result-file names are pairwise distinct.
 */
module ProbeProperties {
  import opened GoStrings
  import opened EvidenceIds
  import opened ProbeCompiler

  /* ---------------------------------------------------------------------- */
  /* The steps inside the program text                                      */
  /* ---------------------------------------------------------------------- */

  /** Every step's text is part of the rendering of the whole list. */
  lemma {:induction false} RenderAllContainsSteps(steps: seq<Step>)
    ensures forall j :: 0 <= j < |steps| ==> Occurs(Render(steps[j]), RenderAll(steps))
    decreases |steps|
  {
    if |steps| > 0 {
      RenderAllContainsSteps(steps[1..]);
      forall j | 0 <= j < |steps|
        ensures Occurs(Render(steps[j]), RenderAll(steps))
      {
        if j == 0 {
          OccursSelf(Render(steps[0]));
          OccursInLeft(Render(steps[0]), Render(steps[0]), RenderAll(steps[1..]));
        } else {
          assert steps[j] == steps[1..][j - 1];
          OccursInRight(Render(steps[j]), Render(steps[0]), RenderAll(steps[1..]));
        }
      }
    }
  }

  /** The compiled program is the loop around the rendering of the steps. */
  lemma CompiledProgram(names: seq<string>, hostEntries: seq<string>, ptrLookupIP: string,
                        prefix: string, namespace: string, domain: string)
    ensures var steps := ProbeSteps(names, hostEntries, ptrLookupIP, prefix, namespace, domain);
            var r := CreateProbeCommand(names, hostEntries, ptrLookupIP, prefix, namespace, domain);
            r.program == LoopHeader + RenderAll(steps) + LoopFooter
            && r.fileNames == FormatAll(Targets(steps))
  {
  }

  /** Whatever occurs in one step's text occurs in the program around the steps. */
  lemma OccursInProgram(w: string, steps: seq<Step>, j: nat, program: string)
    requires j < |steps| && Occurs(w, Render(steps[j]))
    requires program == LoopHeader + RenderAll(steps) + LoopFooter
    ensures Occurs(w, program)
  {
    var body := RenderAll(steps);
    RenderAllContainsSteps(steps);
    OccursTransitive(w, Render(steps[j]), body);
    OccursInRight(w, LoopHeader, body);
    OccursInLeft(w, LoopHeader + body, LoopFooter);
  }

  /** A piece of a piece of `s` is a piece of `s`. */
  lemma {:induction false} OccursTransitive(w: string, v: string, s: string)
    requires Occurs(w, v) && Occurs(v, s)
    ensures Occurs(w, s)
    decreases |s|
  {
    if HasPrefix(s, v) {
      assert s == v + s[|v|..];
      OccursInLeft(w, v, s[|v|..]);
    } else {
      OccursTransitive(w, v, s[1..]);
      assert s == s[..1] + s[1..];
      OccursInRight(w, s[..1], s[1..]);
    }
  }

  /** Steps 2k and 2k+1 are the UDP and TCP lookups of name k. */
  lemma NameStepsAt(names: seq<string>, hostEntries: seq<string>, ptrLookupIP: string,
                    prefix: string, namespace: string, domain: string, k: nat)
    requires k < |names|
    ensures var steps := ProbeSteps(names, hostEntries, ptrLookupIP, prefix, namespace, domain);
            var lookup := LookupType(names[k]);
            && 2 * k + 1 < |steps|
            && steps[2 * k] == Dig(Udp, names[k], lookup, EvidenceId(prefix, Dns(Udp), names[k]))
            && steps[2 * k + 1] == Dig(Tcp, names[k], lookup, EvidenceId(prefix, Dns(Tcp), names[k]))
  {
    var ns := NameSteps(names, prefix);
    var rest := HostSteps(hostEntries, prefix) + PodARecordSteps(prefix, namespace, domain)
      + (if |ptrLookupIP| > 0 then PtrSteps(ptrLookupIP) else []);
    assert ProbeSteps(names, hostEntries, ptrLookupIP, prefix, namespace, domain) == ns + rest;
  }

  /** Step 2n+k is the `getent` lookup of host entry k. */
  lemma HostStepAt(names: seq<string>, hostEntries: seq<string>, ptrLookupIP: string,
                   prefix: string, namespace: string, domain: string, k: nat)
    requires k < |hostEntries|
    ensures var steps := ProbeSteps(names, hostEntries, ptrLookupIP, prefix, namespace, domain);
            && 2 * |names| + k < |steps|
            && steps[2 * |names| + k] == GetentHosts(hostEntries[k], EvidenceId(prefix, HostsFile, hostEntries[k]))
  {
    var front := NameSteps(names, prefix) + HostSteps(hostEntries, prefix);
    var rest := PodARecordSteps(prefix, namespace, domain)
      + (if |ptrLookupIP| > 0 then PtrSteps(ptrLookupIP) else []);
    assert ProbeSteps(names, hostEntries, ptrLookupIP, prefix, namespace, domain) == front + rest;
    assert front[2 * |names| + k] == HostSteps(hostEntries, prefix)[k];
  }

  /** Step 2n+h binds the pod A record name; the next two look it up. */
  lemma PodStepsAt(names: seq<string>, hostEntries: seq<string>, ptrLookupIP: string,
                   prefix: string, namespace: string, domain: string)
    ensures var steps := ProbeSteps(names, hostEntries, ptrLookupIP, prefix, namespace, domain);
            var m := 2 * |names| + |hostEntries|;
            && |steps| == m + 3 + (if |ptrLookupIP| > 0 then 2 else 0)
            && steps[m] == BindPodARecord(namespace, domain)
            && steps[m + 1] == Dig(Udp, PodARecordVar, A, EvidenceId(prefix, Dns(Udp), "PodARecord"))
            && steps[m + 2] == Dig(Tcp, PodARecordVar, A, EvidenceId(prefix, Dns(Tcp), "PodARecord"))
  {
    var front := NameSteps(names, prefix) + HostSteps(hostEntries, prefix);
    var rest := PodARecordSteps(prefix, namespace, domain)
      + (if |ptrLookupIP| > 0 then PtrSteps(ptrLookupIP) else []);
    assert ProbeSteps(names, hostEntries, ptrLookupIP, prefix, namespace, domain) == front + rest;
  }

  /** With an address, the last two steps are its reverse lookups. */
  lemma PtrStepsAt(names: seq<string>, hostEntries: seq<string>, ptrLookupIP: string,
                   prefix: string, namespace: string, domain: string)
    requires |ptrLookupIP| > 0
    ensures var steps := ProbeSteps(names, hostEntries, ptrLookupIP, prefix, namespace, domain);
            var m := 2 * |names| + |hostEntries|;
            && |steps| == m + 5
            && steps[m + 3] == Dig(Udp, PtrQueryName(ptrLookupIP), PTR, EvidenceId(ptrLookupIP, Dns(Udp), "PTR"))
            && steps[m + 4] == Dig(Tcp, PtrQueryName(ptrLookupIP), PTR, EvidenceId(ptrLookupIP, Dns(Tcp), "PTR"))
  {
    var front := NameSteps(names, prefix) + HostSteps(hostEntries, prefix)
      + PodARecordSteps(prefix, namespace, domain);
    assert ProbeSteps(names, hostEntries, ptrLookupIP, prefix, namespace, domain) == front + PtrSteps(ptrLookupIP);
  }

  /** Apart from the binding of the pod A record name, every step of the
      program writes a result file, and that file is one of the returned
      names: the program has no write the file list does not announce. */
  lemma EveryWriteIsAnnounced(names: seq<string>, hostEntries: seq<string>, ptrLookupIP: string,
                              prefix: string, namespace: string, domain: string)
    ensures var steps := ProbeSteps(names, hostEntries, ptrLookupIP, prefix, namespace, domain);
            var r := CreateProbeCommand(names, hostEntries, ptrLookupIP, prefix, namespace, domain);
            && |steps| == |r.fileNames| + 1
            && (forall j :: 0 <= j < |steps| ==>
                  (steps[j].BindPodARecord? <==> j == 2 * |names| + |hostEntries|))
            && (forall j :: 0 <= j < |steps| && !steps[j].BindPodARecord? ==>
                  Format(steps[j].target) in r.fileNames)
  {
    var steps := ProbeSteps(names, hostEntries, ptrLookupIP, prefix, namespace, domain);
    var r := CreateProbeCommand(names, hostEntries, ptrLookupIP, prefix, namespace, domain);
    BindingPosition(names, hostEntries, ptrLookupIP, prefix, namespace, domain);
    assert r.fileNames == FormatAll(Targets(steps)) by {
      CompiledProgram(names, hostEntries, ptrLookupIP, prefix, namespace, domain);
    }
    WritesAreAnnounced(steps);
    forall j | 0 <= j < |steps| && (steps[j].Dig? || steps[j].GetentHosts?)
      ensures Format(steps[j].target) in r.fileNames
    {
      FormatAllMember(Targets(steps), steps[j].target, r.fileNames);
    }
  }

  /** The binding of the pod A record name, after the name and host-entry
      steps, is the only step that writes no result file. */
  lemma BindingPosition(names: seq<string>, hostEntries: seq<string>, ptrLookupIP: string,
                        prefix: string, namespace: string, domain: string)
    ensures var steps := ProbeSteps(names, hostEntries, ptrLookupIP, prefix, namespace, domain);
            && |steps| == 2 * |names| + |hostEntries| + 3 + (if |ptrLookupIP| > 0 then 2 else 0)
            && forall j :: 0 <= j < |steps| ==>
                 (steps[j].BindPodARecord? <==> j == 2 * |names| + |hostEntries|)
  {
    var ns, hs := NameSteps(names, prefix), HostSteps(hostEntries, prefix);
    var pod := PodARecordSteps(prefix, namespace, domain);
    var ptr := if |ptrLookupIP| > 0 then PtrSteps(ptrLookupIP) else [];
    assert ProbeSteps(names, hostEntries, ptrLookupIP, prefix, namespace, domain) == (ns + hs) + pod + ptr;
    AllWriteConcat(ns, hs);
    OnlyTheBindingDoesNotWrite(ns + hs, pod, ptr);
  }

  /** Every writing step's file name is in the file list of the steps. */
  lemma WritesAreAnnounced(steps: seq<Step>)
    ensures forall j :: 0 <= j < |steps| && !steps[j].BindPodARecord? ==> steps[j].target in Targets(steps)
  {
    forall j | 0 <= j < |steps| && (steps[j].Dig? || steps[j].GetentHosts?)
      ensures steps[j].target in Targets(steps)
    {
      TargetInList(steps, j);
    }
  }

  lemma AllWriteConcat(a: seq<Step>, b: seq<Step>)
    requires AllWrite(a) && AllWrite(b)
    ensures AllWrite(a + b)
  {
    forall j | 0 <= j < |a + b| ensures !(a + b)[j].BindPodARecord? {
      if j < |a| { assert (a + b)[j] == a[j]; } else { assert (a + b)[j] == b[j - |a|]; }
    }
  }

  /** In `a + pod + c`, where `a` and `c` only write and `pod` is the pod A
      record section, the binding at position |a| is the only non-writing step. */
  lemma OnlyTheBindingDoesNotWrite(a: seq<Step>, pod: seq<Step>, c: seq<Step>)
    requires AllWrite(a) && AllWrite(c)
    requires |pod| == 3 && pod[0].BindPodARecord? && !pod[1].BindPodARecord? && !pod[2].BindPodARecord?
    ensures forall j :: 0 <= j < |a + pod + c| ==> ((a + pod + c)[j].BindPodARecord? <==> j == |a|)
  {
    var s := a + pod + c;
    forall j | 0 <= j < |s|
      ensures s[j].BindPodARecord? <==> j == |a|
    {
      if j < |a| {
        assert s[j] == a[j];
      } else if j < |a| + 3 {
        assert s[j] == pod[j - |a|];
      } else {
        assert s[j] == c[j - |a| - 3];
      }
    }
  }

  /** A writing step's target is among the targets of the list. */
  lemma {:induction false} TargetInList(steps: seq<Step>, j: nat)
    requires j < |steps| && !steps[j].BindPodARecord?
    ensures steps[j].target in Targets(steps)
    decreases j
  {
    if j > 0 {
      assert steps[j] == steps[1..][j - 1];
      TargetInList(steps[1..], j - 1);
    }
  }

  lemma FormatAllMember(ids: seq<EvidenceId>, x: EvidenceId, fileNames: seq<string>)
    requires x in ids && fileNames == FormatAll(ids)
    ensures Format(x) in fileNames
  {
    var i :| 0 <= i < |ids| && ids[i] == x;
    assert fileNames[i] == Format(x);
  }

  /* ---------------------------------------------------------------------- */
  /* The lookups the program performs                                       */
  /* ---------------------------------------------------------------------- */

  /** A DNS step's text contains its `dig` command. */
  lemma DigInStep(step: Step)
    requires step.Dig?
    ensures Occurs(DigCommand(step.transport, step.query, step.record), Render(step))
  {
    var d := DigCommand(step.transport, step.query, step.record);
    var before, after := "check=\"$$(", "\" && test -n \"$$check\" && " + WriteResult(Format(step.target));
    assert Render(step) == before + d + after;
    OccursInMiddle(d, before, after);
  }

  /** A DNS step's `dig` command is part of the program around the steps. */
  lemma DigStepInProgram(steps: seq<Step>, j: nat, program: string)
    requires j < |steps| && steps[j].Dig?
    requires program == LoopHeader + RenderAll(steps) + LoopFooter
    ensures Occurs(DigCommand(steps[j].transport, steps[j].query, steps[j].record), program)
  {
    DigInStep(steps[j]);
    OccursInProgram(DigCommand(steps[j].transport, steps[j].query, steps[j].record), steps, j, program);
  }

  /** A host-entry step's text contains its `getent` command. */
  lemma GetentInStep(step: Step)
    requires step.GetentHosts?
    ensures Occurs(GetentCommand(step.name), Render(step))
  {
    var w := GetentCommand(step.name);
    var before, after := "test -n \"$$(", "\" && " + WriteResult(Format(step.target));
    assert Render(step) == before + w + after;
    OccursInMiddle(w, before, after);
  }

  /** The binding step's text contains `.<namespace>.pod.<domain>`. */
  lemma BindInStep(step: Step)
    requires step.BindPodARecord?
    ensures Occurs(PodARecordDomain(step.namespace, step.domain), Render(step))
  {
    var w := PodARecordDomain(step.namespace, step.domain);
    var before := "podARec=$$(hostname -i| awk -F. '{print $$1\"-\"$$2\"-\"$$3\"-\"$$4\"";
    var after := "\"}');";
    assert Render(step) == before + w + after;
    OccursInMiddle(w, before, after);
  }

  /** Each DNS step's `dig` command is part of the compiled program. */
  lemma DigStepInCompiled(names: seq<string>, hostEntries: seq<string>, ptrLookupIP: string,
                          prefix: string, namespace: string, domain: string, j: nat,
                          t: Transport, query: string, record: RecordType, target: EvidenceId)
    requires var steps := ProbeSteps(names, hostEntries, ptrLookupIP, prefix, namespace, domain);
             j < |steps| && steps[j] == Dig(t, query, record, target)
    ensures Occurs(DigCommand(t, query, record),
                   CreateProbeCommand(names, hostEntries, ptrLookupIP, prefix, namespace, domain).program)
  {
    CompiledProgram(names, hostEntries, ptrLookupIP, prefix, namespace, domain);
    DigStepInProgram(ProbeSteps(names, hostEntries, ptrLookupIP, prefix, namespace, domain), j,
                     CreateProbeCommand(names, hostEntries, ptrLookupIP, prefix, namespace, domain).program);
  }

  /** The program runs the `dig` commands of both name steps of name k. */
  lemma NameDigsInProgram(names: seq<string>, hostEntries: seq<string>, ptrLookupIP: string,
                          prefix: string, namespace: string, domain: string, k: nat)
    requires k < |names|
    ensures var program := CreateProbeCommand(names, hostEntries, ptrLookupIP, prefix, namespace, domain).program;
            && Occurs(DigCommand(Udp, names[k], LookupType(names[k])), program)
            && Occurs(DigCommand(Tcp, names[k], LookupType(names[k])), program)
  {
    var program := CreateProbeCommand(names, hostEntries, ptrLookupIP, prefix, namespace, domain).program;
    var lookup := LookupType(names[k]);
    assert Occurs(DigCommand(Udp, names[k], lookup), program) by {
      NameStepsAt(names, hostEntries, ptrLookupIP, prefix, namespace, domain, k);
      DigStepInCompiled(names, hostEntries, ptrLookupIP, prefix, namespace, domain, 2 * k,
                        Udp, names[k], lookup, EvidenceId(prefix, Dns(Udp), names[k]));
    }
    assert Occurs(DigCommand(Tcp, names[k], lookup), program) by {
      NameStepsAt(names, hostEntries, ptrLookupIP, prefix, namespace, domain, k);
      DigStepInCompiled(names, hostEntries, ptrLookupIP, prefix, namespace, domain, 2 * k + 1,
                        Tcp, names[k], lookup, EvidenceId(prefix, Dns(Tcp), names[k]));
    }
  }

  /** Each name is looked up with `dig` over UDP and over TCP, as an SRV
      record when it starts with `_` and as an A record otherwise. */
  lemma NameLookupsInProgram(names: seq<string>, hostEntries: seq<string>, ptrLookupIP: string,
                             prefix: string, namespace: string, domain: string, k: nat)
    requires k < |names|
    ensures var program := CreateProbeCommand(names, hostEntries, ptrLookupIP, prefix, namespace, domain).program;
            var record := if |names[k]| > 0 && names[k][0] == '_' then "SRV" else "A";
            && Occurs("dig +notcp +noall +answer +search " + names[k] + " " + record + ")", program)
            && Occurs("dig +tcp +noall +answer +search " + names[k] + " " + record + ")", program)
  {
    NameDigsInProgram(names, hostEntries, ptrLookupIP, prefix, namespace, domain, k);
  }

  /** Each host entry is looked up with `getent hosts`. */
  lemma HostLookupsInProgram(names: seq<string>, hostEntries: seq<string>, ptrLookupIP: string,
                             prefix: string, namespace: string, domain: string, k: nat)
    requires k < |hostEntries|
    ensures Occurs("getent hosts " + hostEntries[k] + ")",
                   CreateProbeCommand(names, hostEntries, ptrLookupIP, prefix, namespace, domain).program)
  {
    var program := CreateProbeCommand(names, hostEntries, ptrLookupIP, prefix, namespace, domain).program;
    var w := GetentCommand(hostEntries[k]);
    assert Occurs(w, program) by {
      var steps := ProbeSteps(names, hostEntries, ptrLookupIP, prefix, namespace, domain);
      var j := 2 * |names| + k;
      var id := EvidenceId(prefix, HostsFile, hostEntries[k]);
      HostStepAt(names, hostEntries, ptrLookupIP, prefix, namespace, domain, k);
      assert program == LoopHeader + RenderAll(steps) + LoopFooter by {
        CompiledProgram(names, hostEntries, ptrLookupIP, prefix, namespace, domain);
      }
      GetentInStep(steps[j]);
      OccursInProgram(w, steps, j, program);
    }
  }

  /** The pod A record name is assembled at run time from the pod's address,
      the namespace and the domain; the program carries `.<ns>.pod.<domain>`. */
  lemma PodARecordInProgram(names: seq<string>, hostEntries: seq<string>, ptrLookupIP: string,
                            prefix: string, namespace: string, domain: string)
    ensures Occurs("." + namespace + ".pod." + domain,
                   CreateProbeCommand(names, hostEntries, ptrLookupIP, prefix, namespace, domain).program)
  {
    var program := CreateProbeCommand(names, hostEntries, ptrLookupIP, prefix, namespace, domain).program;
    var w := PodARecordDomain(namespace, domain);
    assert Occurs(w, program) by {
      var steps := ProbeSteps(names, hostEntries, ptrLookupIP, prefix, namespace, domain);
      var j := 2 * |names| + |hostEntries|;
      PodStepsAt(names, hostEntries, ptrLookupIP, prefix, namespace, domain);
      assert program == LoopHeader + RenderAll(steps) + LoopFooter by {
        CompiledProgram(names, hostEntries, ptrLookupIP, prefix, namespace, domain);
      }
      BindInStep(steps[j]);
      OccursInProgram(w, steps, j, program);
    }
  }

  /** The program runs the `dig` commands of both reverse-lookup steps. */
  lemma PtrDigsInProgram(names: seq<string>, hostEntries: seq<string>, ptrLookupIP: string,
                         prefix: string, namespace: string, domain: string)
    requires |ptrLookupIP| > 0
    ensures var program := CreateProbeCommand(names, hostEntries, ptrLookupIP, prefix, namespace, domain).program;
            && Occurs(DigCommand(Udp, PtrQueryName(ptrLookupIP), PTR), program)
            && Occurs(DigCommand(Tcp, PtrQueryName(ptrLookupIP), PTR), program)
  {
    var m := 2 * |names| + |hostEntries|;
    PtrStepsAt(names, hostEntries, ptrLookupIP, prefix, namespace, domain);
    var q := PtrQueryName(ptrLookupIP);
    DigStepInCompiled(names, hostEntries, ptrLookupIP, prefix, namespace, domain, m + 3,
                      Udp, q, PTR, EvidenceId(ptrLookupIP, Dns(Udp), "PTR"));
    DigStepInCompiled(names, hostEntries, ptrLookupIP, prefix, namespace, domain, m + 4,
                      Tcp, q, PTR, EvidenceId(ptrLookupIP, Dns(Tcp), "PTR"));
  }

  /** With a reverse-lookup address the program asks for the PTR record of
      its IN-ADDR.ARPA name over UDP and over TCP. */
  lemma PtrLookupsInProgram(names: seq<string>, hostEntries: seq<string>, ptrLookupIP: string,
                            prefix: string, namespace: string, domain: string)
    requires |ptrLookupIP| > 0
    ensures var program := CreateProbeCommand(names, hostEntries, ptrLookupIP, prefix, namespace, domain).program;
            && Occurs("dig +notcp +noall +answer +search " + PtrQueryName(ptrLookupIP) + " PTR)", program)
            && Occurs("dig +tcp +noall +answer +search " + PtrQueryName(ptrLookupIP) + " PTR)", program)
  {
    PtrDigsInProgram(names, hostEntries, ptrLookupIP, prefix, namespace, domain);
    PtrDigCommands(PtrQueryName(ptrLookupIP));
  }

  lemma PtrDigCommands(q: string)
    ensures DigCommand(Udp, q, PTR) == "dig +notcp +noall +answer +search " + q + " PTR)"
    ensures DigCommand(Tcp, q, PTR) == "dig +tcp +noall +answer +search " + q + " PTR)"
  {
    assert " " + RecordName(PTR) + ")" == " PTR)";
  }

  /* ---------------------------------------------------------------------- */
  /* Distinctness of the result files                                       */
  /* ---------------------------------------------------------------------- */

  predicate Distinct<T(==)>(s: seq<T>) {
    forall i, j :: 0 <= i < j < |s| ==> s[i] != s[j]
  }

  lemma DistinctConcat<T>(a: seq<T>, b: seq<T>)
    requires Distinct(a) && Distinct(b)
    requires forall x :: x in a ==> x !in b
    ensures Distinct(a + b)
  {
    forall i, j | 0 <= i < j < |a + b|
      ensures (a + b)[i] != (a + b)[j]
    {
      if j < |a| {
        assert (a + b)[i] == a[i] && (a + b)[j] == a[j];
      } else if i < |a| {
        assert (a + b)[i] == a[i] && (a + b)[j] == b[j - |a|];
        assert a[i] in a;
      } else {
        assert (a + b)[i] == b[i - |a|] && (a + b)[j] == b[j - |a|];
      }
    }
  }

  /** The name-step targets are distinct for distinct names, and all are DNS
      identifiers of the prefix whose subject is one of the names. */
  lemma {:induction false} NameTargetsDistinct(names: seq<string>, prefix: string)
    requires Distinct(names)
    ensures Distinct(Targets(NameSteps(names, prefix)))
    ensures forall x :: x in Targets(NameSteps(names, prefix)) ==>
      x.source == prefix && x.channel.Dns? && x.subject in names
    decreases |names|
  {
    if |names| > 0 {
      var rest := names[1..];
      assert Distinct(rest) by {
        forall i, j | 0 <= i < j < |rest| ensures rest[i] != rest[j] {
          assert rest[i] == names[i + 1] && rest[j] == names[j + 1];
        }
      }
      NameTargetsDistinct(rest, prefix);
      var head := [Dig(Udp, names[0], LookupType(names[0]), EvidenceId(prefix, Dns(Udp), names[0])),
                   Dig(Tcp, names[0], LookupType(names[0]), EvidenceId(prefix, Dns(Tcp), names[0]))];
      assert NameSteps(names, prefix) == head + NameSteps(rest, prefix);
      TargetsAppend(head, NameSteps(rest, prefix));
      assert Targets(head) == [head[0].target, head[1].target] by {
        assert head[1..][1..] == [];
      }
      assert names[0] !in rest by {
        forall j | 0 <= j < |rest| ensures rest[j] != names[0] {
          assert rest[j] == names[j + 1];
        }
      }
      DistinctConcat(Targets(head), Targets(NameSteps(rest, prefix)));
    }
  }

  /** The host-step targets are distinct for distinct entries, and all are
      `hosts` identifiers of the prefix. */
  lemma {:induction false} HostTargetsDistinct(hostEntries: seq<string>, prefix: string)
    requires Distinct(hostEntries)
    ensures Distinct(Targets(HostSteps(hostEntries, prefix)))
    ensures forall x :: x in Targets(HostSteps(hostEntries, prefix)) ==>
      x.source == prefix && x.channel == HostsFile
  {
    HostTargets(hostEntries, prefix);
    var t := Targets(HostSteps(hostEntries, prefix));
    forall i, j | 0 <= i < j < |t| ensures t[i] != t[j] {
      assert t[i].subject == hostEntries[i] && t[j].subject == hostEntries[j];
    }
  }

  /** The three sections of the target list do not overlap: name targets are
      DNS identifiers of a name, host targets are `hosts` identifiers, and the
      tail has the subjects `PodARecord` (which is no name) and `PTR` (whose
      source is the address, which is not the prefix). */
  lemma SectionsDistinct(tn: seq<EvidenceId>, th: seq<EvidenceId>, names: seq<string>,
                         prefix: string, ptrLookupIP: string)
    requires Distinct(tn) && Distinct(th)
    requires forall x :: x in tn ==> x.source == prefix && x.channel.Dns? && x.subject in names
    requires forall x :: x in th ==> x.source == prefix && x.channel == HostsFile
    requires "PodARecord" !in names
    requires |ptrLookupIP| > 0 ==> ptrLookupIP != prefix
    ensures Distinct(tn + th + TailTargets(prefix, ptrLookupIP))
  {
    var tail := TailTargets(prefix, ptrLookupIP);
    assert Distinct(tail);
    assert forall x :: x in tail ==> x.channel.Dns? && (x.subject == "PodARecord" || x.source != prefix);
    DistinctConcat(tn, th);
    DistinctConcat(tn + th, tail);
  }

  /** Distinct identifiers with `@`-free sources have distinct file names. */
  lemma FormatAllDistinct(ids: seq<EvidenceId>)
    requires Distinct(ids)
    requires forall i :: 0 <= i < |ids| ==> '@' !in ids[i].source
    ensures Distinct(FormatAll(ids))
  {
    var fileNames := FormatAll(ids);
    forall i, j | 0 <= i < j < |fileNames|
      ensures fileNames[i] != fileNames[j]
    {
      FormatInjective(ids[i], ids[j]);
    }
  }

  /** Under the conditions of FileNamesDistinct the targets of the steps are
      pairwise distinct and their sources have no `@`. */
  lemma TargetsDistinct(names: seq<string>, hostEntries: seq<string>, ptrLookupIP: string,
                        prefix: string, namespace: string, domain: string)
    requires Distinct(names) && Distinct(hostEntries)
    requires "PodARecord" !in names
    requires '@' !in prefix
    requires |ptrLookupIP| > 0 ==> '@' !in ptrLookupIP && ptrLookupIP != prefix
    ensures var ids := Targets(ProbeSteps(names, hostEntries, ptrLookupIP, prefix, namespace, domain));
            Distinct(ids) && forall i :: 0 <= i < |ids| ==> '@' !in ids[i].source
  {
    var ids := Targets(ProbeSteps(names, hostEntries, ptrLookupIP, prefix, namespace, domain));
    var tn := Targets(NameSteps(names, prefix));
    var th := Targets(HostSteps(hostEntries, prefix));
    ProbeTargets(names, hostEntries, ptrLookupIP, prefix, namespace, domain);
    NameTargetsDistinct(names, prefix);
    HostTargetsDistinct(hostEntries, prefix);
    SectionsDistinct(tn, th, names, prefix, ptrLookupIP);
    forall i | 0 <= i < |ids|
      ensures '@' !in ids[i].source
    {
      assert ids[i] in tn + th + TailTargets(prefix, ptrLookupIP);
    }
  }

  /** The result-file names of one compilation are pairwise distinct when the
      names are distinct, the host entries are distinct, no name is the token
      `PodARecord`, the prefix has no `@`, and a reverse-lookup address, when
      given, has no `@` and differs from the prefix. */
  lemma FileNamesDistinct(names: seq<string>, hostEntries: seq<string>, ptrLookupIP: string,
                          prefix: string, namespace: string, domain: string)
    requires Distinct(names) && Distinct(hostEntries)
    requires "PodARecord" !in names
    requires '@' !in prefix
    requires |ptrLookupIP| > 0 ==> '@' !in ptrLookupIP && ptrLookupIP != prefix
    ensures Distinct(CreateProbeCommand(names, hostEntries, ptrLookupIP, prefix, namespace, domain).fileNames)
  {
    var ids := Targets(ProbeSteps(names, hostEntries, ptrLookupIP, prefix, namespace, domain));
    TargetsDistinct(names, hostEntries, ptrLookupIP, prefix, namespace, domain);
    CompiledProgram(names, hostEntries, ptrLookupIP, prefix, namespace, domain);
    FormatAllDistinct(ids);
  }

  /** Two positions with the same target hold the same result file. */
  lemma SameTargetSameFile(names: seq<string>, hostEntries: seq<string>, ptrLookupIP: string,
                           prefix: string, namespace: string, domain: string, i: nat, j: nat)
    requires var ids := Targets(ProbeSteps(names, hostEntries, ptrLookupIP, prefix, namespace, domain));
             i < j < |ids| && ids[i] == ids[j]
    ensures var r := CreateProbeCommand(names, hostEntries, ptrLookupIP, prefix, namespace, domain);
            i < j < |r.fileNames| && r.fileNames[i] == r.fileNames[j]
  {
    CompiledProgram(names, hostEntries, ptrLookupIP, prefix, namespace, domain);
  }

  /** Distinctness needs distinct inputs: a name listed twice yields the same
      UDP result file twice. */
  lemma RepeatedNameRepeatsFile(names: seq<string>, hostEntries: seq<string>, ptrLookupIP: string,
                                prefix: string, namespace: string, domain: string, i: nat, j: nat)
    requires i < j < |names| && names[i] == names[j]
    ensures var r := CreateProbeCommand(names, hostEntries, ptrLookupIP, prefix, namespace, domain);
            r.fileNames[2 * i] == r.fileNames[2 * j]
  {
    NameTargetsAtFront(names, hostEntries, ptrLookupIP, prefix, namespace, domain);
    SameTargetSameFile(names, hostEntries, ptrLookupIP, prefix, namespace, domain, 2 * i, 2 * j);
  }

  /** A name equal to the token `PodARecord` collides with the pod A record file. */
  lemma PodARecordNameCollides(names: seq<string>, hostEntries: seq<string>, ptrLookupIP: string,
                               prefix: string, namespace: string, domain: string, k: nat)
    requires k < |names| && names[k] == "PodARecord"
    ensures var r := CreateProbeCommand(names, hostEntries, ptrLookupIP, prefix, namespace, domain);
            r.fileNames[2 * k] == r.fileNames[2 * |names| + |hostEntries|]
  {
    PodARecordNameTarget(names, hostEntries, ptrLookupIP, prefix, namespace, domain, k);
    SameTargetSameFile(names, hostEntries, ptrLookupIP, prefix, namespace, domain, 2 * k, 2 * |names| + |hostEntries|);
  }

  lemma PodARecordNameTarget(names: seq<string>, hostEntries: seq<string>, ptrLookupIP: string,
                             prefix: string, namespace: string, domain: string, k: nat)
    requires k < |names| && names[k] == "PodARecord"
    ensures var ids := Targets(ProbeSteps(names, hostEntries, ptrLookupIP, prefix, namespace, domain));
            2 * k < 2 * |names| + |hostEntries| < |ids| && ids[2 * k] == ids[2 * |names| + |hostEntries|]
  {
    NameTargetsAtFront(names, hostEntries, ptrLookupIP, prefix, namespace, domain);
  }

  /** The targets of the whole step list start with the name targets, then
      the host targets, then the pod A record pair. */
  lemma NameTargetsAtFront(names: seq<string>, hostEntries: seq<string>, ptrLookupIP: string,
                           prefix: string, namespace: string, domain: string)
    ensures var ids := Targets(ProbeSteps(names, hostEntries, ptrLookupIP, prefix, namespace, domain));
            && |ids| >= 2 * |names| + |hostEntries| + 2
            && (forall k :: 0 <= k < |names| ==>
                  ids[2 * k] == EvidenceId(prefix, Dns(Udp), names[k])
                  && ids[2 * k + 1] == EvidenceId(prefix, Dns(Tcp), names[k]))
            && (forall k :: 0 <= k < |hostEntries| ==> ids[2 * |names| + k] == EvidenceId(prefix, HostsFile, hostEntries[k]))
            && ids[2 * |names| + |hostEntries|] == EvidenceId(prefix, Dns(Udp), "PodARecord")
            && ids[2 * |names| + |hostEntries| + 1] == EvidenceId(prefix, Dns(Tcp), "PodARecord")
  {
    var tn := Targets(NameSteps(names, prefix));
    var th := Targets(HostSteps(hostEntries, prefix));
    ProbeTargets(names, hostEntries, ptrLookupIP, prefix, namespace, domain);
    NameTargets(names, prefix);
    HostTargets(hostEntries, prefix);
    var ids := tn + th + TailTargets(prefix, ptrLookupIP);
    forall k | 0 <= k < |names|
      ensures ids[2 * k] == tn[2 * k] && ids[2 * k + 1] == tn[2 * k + 1]
    {
    }
    forall k | 0 <= k < |hostEntries|
      ensures ids[2 * |names| + k] == th[k]
    {
    }
  }
}

=== FILE: wrappers.dfy ===
/** Failure-carrying return values shared by the modules of this model. */
module Wrappers {

  /** A value that may be absent: Go's nil slice or nil IP. */
  datatype Option<+T> = None | Some(value: T)

  /** A computed value or the reason it could not be computed. */
  datatype Result<+R, +E> = Success(value: R) | Failure(error: E)
}
